=== FILE: README.md ===
# pjsua.node session control, modelled in Dafny

pjsua.node is a thin TypeScript layer over the Sipster SIP engine. It keeps
one SIP account (`AccountExt`) and at most one active call (`CallExt`) per
user agent (`Pjsua`). It turns the engine's callbacks (`state`, `media`,
`dtmf`, `registered`, `unregistered`, `call`, …) into promise results for
`makeAccount`, `removeAccount`, `makeCall`, `answer` and `hangup`. It also
attaches a player and a recorder to the first media stream of a call.

This project models that control layer as pure functions over immutable
state:

- `types.dfy` (module `Types`): the registration states, including the
  misspelt `Unregistererd` the source writes, and the errors with their
  exact messages. It also holds settlements (a promise that is pending, or
  settled once), the call and account wrappers, and the effect log.
  The effect log is the sequence of commands the layer sends to the engine
  and its media objects, plus the notifications it emits.
- `calls.dfy` (module `Calls`): `CallExt` construction, `onMedia`,
  `onDisconnected`, `onDtmf`, `answer` and `hangup`. Native media objects
  appear only as effect-log entries.
- `accounts.dfy` (module `Accounts`): `AccountExt`'s registration
  handlers, the inbound-call arbitration of `onCall`, and the hooks that
  forward session events to the active call.
- `user_agent.dfy` (module `UserAgent`): the whole user agent.
  - It holds the account, the listener lists attached to the engine account
    and to each engine session, the results of the asynchronous operations,
    and the effect log.
  - Listeners follow Node's EventEmitter rules. An event runs a snapshot of
    the matching listeners in attachment order. A `once` listener is
    detached before it runs. `removeAllListeners` empties the list. A
    listener that throws stops the rest of the snapshot.
  - The five operations are modelled together with `setRegistration`.
  - `Step` and `Run` apply one or several inputs. An input is an operation
    call or an engine event.
- `properties.dfy` (module `Properties`): facts about every run.
- `scenarios.dfy` (module `Scenarios`): the life cycles of each operation,
  event by event.

Two behaviours of the source are modelled exactly as written, because they
shape what the properties can say:

- `onUnregistered` stores the state `"unregistererd"`, but
  `removeAccount` compares against `"unregistered"`. The "already
  unregistered" no-op of `removeAccount` can therefore never be taken
  (`Properties.RemoveAccountNoOpUnreachable`). A second removal is
  rejected with `not registered, "unregistererd"`.
- `CallExt.onDisconnected` iterates over the stored media list, which is
  undefined until a non-empty `media` event arrives. A call that ends
  before any media is negotiated therefore throws inside the `disconnected`
  listener. By then its listeners are already removed. The call stays
  active, its promise never settles, and every later `makeCall` is refused
  (`Scenarios.MakeCallDisconnectedBeforeMediaStrands`).

The source's own comments promise more than its code delivers. The
`// noop` comment at src/Pjsua.ts:489 marks a branch that no library code
path reaches (only an application writing the public `state` setter could). The `@reject {Error} disconnected` lines of `makeCall` and
`answer` (src/Pjsua.ts:266 and 302) describe a rejection that a call
dropped before media never receives. The model follows the code.

Settlement is proved at most once: a settled result never changes along
any run (`Properties.RunKeepsSettlements`). It is not proved at least
once, because the code does not guarantee it. A result settles only
through its own listeners, and a result none of whose listeners remain
keeps its value along every run (`Properties.RunKeepsOrphan`). Besides
the throw above, three paths of the source remove a pending result's
listeners before they fire:

- `hangup` replaces every listener of the active call's session
  (src/Pjsua.ts:346). A pending `makeCall` or `answer` on that call, or an
  earlier pending `hangup`, is never settled
  (`Properties.HangupStrandsPending`, `Scenarios.HangupStrandsMakeCall`).
- `removeAccount` while `makeAccount` is pending passes its guards, because
  a new account starts out `registered` (src/Pjsua.ts:208). Its
  `removeAllListeners` (src/Pjsua.ts:493) then removes the listeners that
  would settle `makeAccount` (`Scenarios.RemoveAccountStrandsMakeAccount`).
- A second `removeAccount` while the first is pending. The first call's
  `removeAllListeners` (src/Pjsua.ts:493) also drops the `unregistering`
  forwarder, so the account still reads `registered` and the second call
  passes every guard (src/Pjsua.ts:484-491). Its own `removeAllListeners`
  then removes the first call's resolver
  (`Scenarios.SecondRemoveAccountStrandsFirst`).

A registration refresh also leaves the account stuck. The `registered`
listener is attached with `once` (src/Pjsua.ts:464), so after makeAccount
resolves no later `registered` reaches any handler, while `registering` and
`unregistering` are still forwarded (src/Pjsua.ts:457-458, 211-224). After
one refresh cycle (`registered`, `registering`, `registered`) the state is
`registering`. No later `registered` restores it until makeAccount is called
again and attaches a fresh `once` listener; only an `unregistering` or
`unregistered` from the engine moves it on. Meanwhile makeCall rejects
`not registered` (src/Pjsua.ts:271-272) and removeAccount rejects
`not registered, "registering"` (src/Pjsua.ts:490-491). A non-terminal
registration state therefore does not always return to `registered`
(`Scenarios.RefreshAfterResolve`, `Scenarios.RegistrationRefreshSticks`).

## Model

| member | source | states |
|---|---|---|
| Calls.New | src/Pjsua.ts:90-106 | A wrapper starts with no media. It uses its own player configuration when given one and its account's otherwise. It creates a player (recorder) exactly when that configuration names a file, and it creates nothing else. |
| Calls.OnMedia | src/Pjsua.ts:121-130 | An empty media list changes nothing. Otherwise the list replaces the stored one, and the only commands are starts of the player-to-stream and stream-to-recorder links for the first stream. |
| Calls.CloseAll | src/Pjsua.ts:117-118 | One close command per stored stream, in list order. |
| Calls.OnDisconnected | src/Pjsua.ts:115-120 | Throws exactly when no media list was ever stored. Otherwise each stored stream is closed in order, and then `disconnected` is emitted. |
| Calls.Hangup | src/Pjsua.ts:148-157 | The session's hangup, with the caller's code and reason, is the last command. Before it come only link stops: exactly the first stream's links when media is stored and non-empty, none otherwise. |
| Calls.ClosedCloseAll | src/Pjsua.ts:117-118 | The streams the close commands name are the stored list itself. |
| Calls.DisconnectClosesStoredMedia | src/Pjsua.ts:115-120 | With media stored, disconnection succeeds and closes exactly the stored streams, each as often as it is stored. |
| Calls.HangupStopsWhatMediaStarted | src/Pjsua.ts:121-157 | Hanging up after a non-empty negotiation stops exactly the set of links that negotiation started. |
| Calls.MediaReplacesPrevious | src/Pjsua.ts:121-130 | A later non-empty negotiation replaces whatever list was stored before; the session is kept. |
| Accounts.New | src/Pjsua.ts:200-209 | A new account is optimistically `registered` and has no call in progress. |
| Accounts.OnRegistering | src/Pjsua.ts:211-215 | State becomes `registering`, the call is kept, `registering` is emitted. |
| Accounts.OnRegistered | src/Pjsua.ts:216-219 | State becomes `registered`, the call is kept, nothing is emitted. |
| Accounts.OnUnregistering | src/Pjsua.ts:220-224 | State becomes `unregistering`, the call is kept, `unregistering` is emitted. |
| Accounts.OnUnregistered | src/Pjsua.ts:225-229 | State becomes the misspelt `unregistererd`, which differs from `unregistered`; that misspelt name is emitted. |
| Accounts.RegistrationEventsTouchOnlyState | src/Pjsua.ts:211-229 | Each registration event sets a state fixed by the event alone, whatever the previous state was. It never sets `unregistered`, distinct events give distinct states, and the active call is untouched. |
| Accounts.OnCall | src/Pjsua.ts:230-235 | The account itself is never changed: the first call wins. When busy, the only command is a hangup of the new session with engine defaults. When idle, the log holds exactly the creations of the wrapper's player and recorder, then the `call` notification offering that wrapper (built with the account's configuration); the session is neither answered nor hung up. |
| Accounts.OnDtmf | src/Pjsua.ts:255-259 | The digit is re-emitted, tagged with the active call's session, exactly when a call is active. |
| Accounts.OnMedia | src/Pjsua.ts:250-254 | Without an active call nothing happens. With one, the account's call and the commands are exactly the call's own media negotiation, so the state and the call's session are kept and only a non-empty list changes the stored media. |
| Accounts.OnDisconnected | src/Pjsua.ts:245-249 | Nothing happens without an active call. Otherwise this is the call's own disconnect, which throws exactly when the call stored no media. |
| UserAgent.Init | src/Pjsua.ts:396-400 | A fresh user agent has no account, no account listeners, no results, and an engine not yet started. |
| UserAgent.CloseActiveCall | src/Pjsua.ts:287-291 | The session loses every listener, and no other session or account listener changes. The close throws exactly when the active call never stored media, and then neither the results nor the active call change. A throw logs only the failure. Otherwise the log gains exactly the active call's `onDisconnected` commands (each stored stream closed in order, then `disconnected` emitted), the active call is cleared and this result, if still pending, is settled. No other result changes, and no new call appears. |
| UserAgent.OnSetupState | src/Pjsua.ts:280-326 | `confirmed` resolves a pending result: makeCall with the active call, answer with nothing. `disconnected` removes the session's listeners. It throws exactly when the active call stored no media; otherwise it logs exactly the call's `onDisconnected` commands, clears the call and rejects a pending result with `disconnected`. Other states change nothing. Only this listener's own result can change, and no new call starts. |
| UserAgent.OnHangupState | src/Pjsua.ts:347-356 | Only `disconnected` has an effect. It throws when there is no active call or the call stored no media. A throw logs only the failure. Otherwise it clears the active call's listeners, logs exactly the call's `onDisconnected` commands (streams closed in order, then `disconnected` emitted), clears the call, and resolves a pending hangup result. Only that result can change. |
| UserAgent.ApplySession | src/Pjsua.ts:278-313 | The dtmf, media and state listeners never start a new call or unsettle a result. They change only the result the listener itself settles. A session's listeners are either kept or all removed, and account listeners are untouched. Every event except `disconnected` keeps the active call and does not throw. With an account, the dtmf listener logs exactly what `Accounts.OnDtmf` re-emits, and the media listener is exactly `Accounts.OnMedia` (stored list and started links). |
| UserAgent.RunSession | src/Pjsua.ts:278-293 | The same three facts hold for a whole snapshot of listeners run in order, including one cut short by a throw. |
| UserAgent.OnSessionEvent | src/Pjsua.ts:278-293 | A session event never starts a call or unsettles a result, and only `disconnected` can end the active call. |
| UserAgent.ApplyAccount | src/Pjsua.ts:450-467 | One account listener changes only the result it settles itself, only removes account listeners, and leaves session listeners, the active call and settled results alone. The `registering` and `unregistering` forwarders are exactly the account's registration handlers, and the `call` forwarder is exactly `Accounts.OnCall`. |
| UserAgent.RunAccount | src/Pjsua.ts:450-467 | Account listeners never unsettle a result, never create or drop the account, never change the active call, and never touch session listeners. |
| UserAgent.OnAccountEvent | src/Pjsua.ts:402-426 | An engine account event keeps the active call and the session listeners, and never creates or drops the account. |
| UserAgent.MakeAccount | src/Pjsua.ts:435-472 | Adds a pending result. An existing account is modified and keeps its state and call; otherwise a new `registered` account is made. The six listeners are appended after any already attached, with the `once` listener last. The log records exactly a modify of the existing account or the creation of a new one, followed by an engine start only when the engine had not started yet. |
| UserAgent.RemoveAccount | src/Pjsua.ts:481-501 | Guards apply in source order: no account, call in progress, `unregistered` (no-op success), not `registered` (the message names the state). Each guard adds only its result. Otherwise every account listener is replaced by the single resolver, unregistration is requested, and the result stays pending. |
| UserAgent.MakeCall | src/Pjsua.ts:268-295 | Guards apply in order: not `registered`, then call in progress. Each adds only its rejected result. Otherwise the engine dials a fresh session, which becomes the active call with no media. The call is the account's wrapper of that session (`Calls.New` with the account's player configuration). Exactly that session gains the dtmf, media and state listeners, and the result stays pending. The log records the dial followed by exactly the wrapper's player and recorder creations. |
| UserAgent.Answer | src/Pjsua.ts:304-329 | A call in progress means rejection with `calling in progress` and nothing else changes. Otherwise the offered call becomes active before the answer with the caller's code and reason is sent, its session gains the three listeners, and the result stays pending. |
| UserAgent.Hangup | src/Pjsua.ts:340-359 | With no call the result is `not calling`. Otherwise the session's listeners are replaced by one that waits for `disconnected`, the call's hangup commands are sent, the call stays active, and the result stays pending. |
| UserAgent.Step | src/Pjsua.ts:268-501 | No input unsettles a result or drops an existing account. |
| Properties.RunKeepsSettlements | src/Pjsua.ts:268-501 | Along any sequence of operations and events, a settled result keeps its settlement. |
| Properties.SettledOnce | src/Pjsua.ts:450-467 | Once a result is settled at some point of a run, every later point shows that same settlement: late or duplicate `registered`, 408 or `unregistered` events cannot settle it again. |
| Properties.StepNeverReplacesCall | src/Pjsua.ts:230-359 | The active call is never swapped for another. It ends only on a `disconnected` event, and a call becomes active only through makeCall or answer while none is active. |
| Properties.RunSessionKeepsOrphan | src/Pjsua.ts:278-356 | A snapshot of session listeners, none of which settles a given result, leaves that result unchanged, and no listener that settles it appears. |
| Properties.RunAccountKeepsOrphan | src/Pjsua.ts:450-498 | The same for a snapshot of account listeners. |
| Properties.StepKeepsOrphan | src/Pjsua.ts:268-501 | No operation or engine event changes a result that no listener settles; the listeners each operation attaches settle only that operation's own new result. |
| Properties.RunKeepsOrphan | src/Pjsua.ts:268-501 | Along any run, a result whose listeners are all gone keeps its value; a pending one stays pending forever. |
| Properties.HangupStrandsPending | src/Pjsua.ts:340-359 | After hangup, a result that was pending on the active call's session, and settled by no other listener, stays pending along every run. This covers makeCall, answer and an earlier hangup. |
| Properties.RunKeepsSpelling | src/Pjsua.ts:225-229 | From any state whose account is not `unregistered`, no run ever reaches `unregistered`. |
| Properties.RemoveAccountNoOpUnreachable | src/Pjsua.ts:488-489 | In every state reachable from a fresh user agent, removeAccount never resolves through its "already unregistered" branch. |
| Properties.SilentSessionIgnoresEvents | src/Pjsua.ts:288-291 | A session whose listeners were removed ignores every event it raises. |
| Properties.SilentAccountIgnoresEvents | src/Pjsua.ts:450-463 | An engine account with no listeners ignores every event. An inbound call still consumes a session, which nobody answers or hangs up. |
| UserAgent.SessionMatchingSelects | src/Pjsua.ts:278-293 | An event on a session runs exactly the listeners attached for that event. |
| UserAgent.AccountMatchingSelects | src/Pjsua.ts:450-467 | An event on the account runs exactly the listeners attached for that event. |
| Scenarios.MakeCallDials | src/Pjsua.ts:270-279 | A registered, idle account dials: the new session is active with no media, has the three listeners, and its result is pending. |
| Scenarios.MakeCallConfirmedResolves | src/Pjsua.ts:284-286 | `confirmed` resolves makeCall with the active call, and the call and its listeners stay. |
| Scenarios.MakeCallMedia | src/Pjsua.ts:279 | Media on the dialled session is stored on the active call and leaves every result as it was. |
| Scenarios.MakeCallDisconnectedRejects | src/Pjsua.ts:287-291 | `disconnected` after media rejects with `disconnected`, closes exactly the stored streams, emits `disconnected` last, clears the call and the listeners, and makes every later event on that session do nothing. |
| Scenarios.MakeCallConfirmedThenDisconnected | src/Pjsua.ts:280-293 | A resolved makeCall stays resolved with the call after the call is later torn down. |
| Scenarios.HangupStrandsMakeCall | src/Pjsua.ts:340-359 | Hanging up a dialled call before it is confirmed: after `disconnected`, makeCall is still pending and orphaned (no listener can settle it), so by `Properties.RunKeepsOrphan` it stays pending along every later run. |
| Scenarios.MakeCallDisconnectedBeforeMediaStrands | src/Pjsua.ts:115-120 | `disconnected` before any media throws after the listeners are removed. The result stays pending and the call stays active, and the session ignores everything afterwards. A new makeCall is refused. |
| Scenarios.AnswerLifecycle | src/Pjsua.ts:304-329 | Answer, then `confirmed`, media and `disconnected`: pending, then resolved, and still resolved at the end. The stored streams are closed, `disconnected` is emitted last, and the call and its listeners are cleared. |
| Scenarios.AnswerDisconnectedRejects | src/Pjsua.ts:313-326 | A call dropped after media but before `confirmed` rejects answer with `disconnected` and clears the call and its listeners. Dropped before any media, answer stays pending and the call stays active. |
| Scenarios.AnswerWhileBusyRefused | src/Pjsua.ts:307-308 | Answering while a call is active only adds a `calling in progress` rejection. |
| Scenarios.HangupWaitsForDisconnect | src/Pjsua.ts:340-359 | After hangup, every event except `disconnected` changes nothing; the result stays pending and the call stays active. |
| Scenarios.HangupResolvesOnDisconnect | src/Pjsua.ts:340-359 | After hangup of a call with media stored, `disconnected` closes exactly the stored streams, emits `disconnected` last, resolves the result and clears the call and the session's listeners. |
| Scenarios.MakeAccountTimesOut | src/Pjsua.ts:450-455 | A 408 before registration rejects with `timeout` and detaches every listener, so no later event reaches the result or the account. |
| Scenarios.RegisteredResolvesOnce | src/Pjsua.ts:464-467 | With makeAccount's listeners attached and its result pending, `registered` resolves the result, sets `registered` and removes only the `once` listener. |
| Scenarios.MakeAccountRegisteredFirst | src/Pjsua.ts:464-467 | The first `registered` resolves makeAccount, sets `registered`, and removes only the `once` listener. |
| Scenarios.OnceListenerRemovesItself | src/Pjsua.ts:464 | Removing the `once` listener leaves exactly the listeners attached with `on`. |
| Scenarios.RefreshAfterResolve | src/Pjsua.ts:457-467 | Once makeAccount has resolved, a later `registered` changes nothing at all, while `registering` still sets the state to `registering` and keeps the listeners and results. |
| Scenarios.RegistrationRefreshSticks | src/Pjsua.ts:211-218 | After makeAccount, `registered`, `registering`, `registered` leaves the account `registering`; makeCall is then rejected `not registered` and removeAccount `not registered, "registering"`. |
| Scenarios.MakeAccountLateEvents | src/Pjsua.ts:450-463 | After makeAccount settles, a 408 or `unregistered` does not change results but detaches every listener. `unregistered` also moves the account to the misspelt state. |
| Scenarios.MakeAccountUnregisteredFirst | src/Pjsua.ts:459-463 | `unregistered` before registration rejects with `unregistered`, detaches every listener, and leaves the misspelt state. |
| Scenarios.InboundCallArbitration | src/Pjsua.ts:230-235 | Through the account's listeners, an inbound call to a busy account is hung up at once. An idle account offers it to observers. The active call and the account are unchanged either way. |
| Scenarios.RemakeAccountDoublesListeners | src/Pjsua.ts:441-456 | A second makeAccount keeps the account but attaches a second set of listeners, so one inbound call is handled twice. |
| Scenarios.RemoveAccountResolves | src/Pjsua.ts:493-499 | Removing an idle registered account stays pending until `unregistered`, then resolves. The account ends in the misspelt state, with no call and no listeners. |
| Scenarios.AfterRemoval | test/pjsua.test.ts:215-238 | After removal, makeCall fails with `not registered`, and a second removal fails with `not registered, "unregistererd"`. |
| Scenarios.RemoveAccountThenRetry | test/pjsua.test.ts:211-238 | Remove, makeCall, remove again: pending then resolved, then `not registered`, then the misspelt-state rejection. |
| Scenarios.RemoveAccountStrandsMakeAccount | src/Pjsua.ts:481-501 | Removing a new account while makeAccount is pending passes the guards. The removal resolves on `unregistered`, and makeAccount stays pending along every later run. |
| Scenarios.SecondRemoveAccountStrandsFirst | src/Pjsua.ts:481-501 | A second removeAccount of a registered idle account while the first is pending passes the guards and resolves on `unregistered`; the first removal stays pending with no listener left to settle it. |
| Scenarios.RemoveAccountWhileCalling | src/Pjsua.ts:486-487 | Removal with a call in progress is rejected with `call in progress`, and the account is kept. |

## Left out

- The Sipster engine, endpoint and transport are not modelled. Engine commands appear as effect-log entries, and engine callbacks are inputs to `Step`.
- `makeAccountConfig` merging and the account configuration contents are not modelled: makeAccount logs only that it created or modified the account.
- Native media (players, recorders, audio streams) appear only as effect-log entries. A failure to create a player or recorder is not modelled.
- The engine's default status codes and reasons are not modelled: an omitted code or reason is recorded as `None`, and the engine chooses its defaults.
- The contents of the engine's call info are not modelled: they are an opaque string.
- `debug` logging and the `onConfirmed`/`onConnecting` hooks are not modelled, because they only log.
- The public `state` setter and the getters are not modelled, because the setter writes arbitrary strings that no library code path produces.
- A listener that throws is recorded as a `Threw` log entry, and the rest of its snapshot is cut short. What the process does with the uncaught exception is outside the model.
- An account operation called before makeAccount is not modelled. The source dereferences an undefined account and fails in the caller, so `Step` leaves the state unchanged for it.
- Fresh engine sessions are numbered by a counter in the user agent. Engine session identity is not modelled beyond that counter.
- The compiled `dist/` copy is not modelled. It is a stale build that differs from src/Pjsua.ts: its makeCall has no `not registered` guard (dist/src/Pjsua.js:188-193), and its account-configuration merge mutates the shared default configuration (dist/src/Pjsua.js:334-335). The test harness is not modelled either; it only drives the source.
- The offered call passed to answer is any `CallExt` value. This is an over-approximation: the model does not require that the engine opened its session, or that its media and player flags are the ones the wrapper was built with.
- The application calling `CallExt.hangup()` directly on an offered, unanswered call (as test/pjsua.test.ts:149 does) is not an input of the model. Only `AccountExt.hangup` on the active call is.
- Calls.OnDtmf and Calls.Answer: each only forwards one command and has no contract of its own. Their effect is stated by `Accounts.OnDtmf` (the re-emitted digit), `UserAgent.ApplySession` (the dtmf listener) and `UserAgent.Answer` (exactly one answer command). `UserAgent.SetRegistration` has no row: its contract is only the single engine command it forwards.

=== FILE: accounts.dfy ===
/** The AccountExt wrapper: its registration-state handlers, inbound-call
    arbitration, and the hooks that forward session events to the active
    call. The asynchronous operations, which also touch listeners and
    results, live in module UserAgent. */
module Accounts {
  import opened Types
  import Calls

  /** True when the account holds an active call. */
  predicate IsCallInProgress(a: AccountExt)
  {
    a.call.Some?
  }

  /** A freshly constructed account: optimistically registered, no call. */
  function New(): (a: AccountExt)
    ensures a.state == Registered
    ensures !IsCallInProgress(a)
  {
    AccountExt(Registered, None)
  }

  /** Registration refresh started. */
  function OnRegistering(a: AccountExt): (r: (AccountExt, seq<Effect>))
    ensures r.0.state == Registering && r.0.call == a.call
    ensures r.1 == [Emit(RegisteringNote)]
  {
    (a.(state := Registering), [Emit(RegisteringNote)])
  }

  /** Registration completed; no notification. */
  function OnRegistered(a: AccountExt): (r: (AccountExt, seq<Effect>))
    ensures r.0.state == Registered && r.0.call == a.call
    ensures r.1 == []
  {
    (a.(state := Registered), [])
  }

  /** Unregistration started. */
  function OnUnregistering(a: AccountExt): (r: (AccountExt, seq<Effect>))
    ensures r.0.state == Unregistering && r.0.call == a.call
    ensures r.1 == [Emit(UnregisteringNote)]
  {
    (a.(state := Unregistering), [Emit(UnregisteringNote)])
  }

  /** Unregistration completed. The source stores (and emits) the misspelt
      "unregistererd", so the state is `Unregistererd`, never `Unregistered`. */
  function OnUnregistered(a: AccountExt): (r: (AccountExt, seq<Effect>))
    ensures r.0.state == Unregistererd && r.0.state != Unregistered && r.0.call == a.call
    ensures r.1 == [Emit(UnregistererdNote)]
  {
    (a.(state := Unregistererd), [Emit(UnregistererdNote)])
  }

  /** An inbound call on `session`. With a call active the new session is
      hung up (first call wins); otherwise a wrapper is built and offered to
      observers. Either way the account itself is unchanged: only `answer`
      makes a call active. */
  function OnCall(a: AccountExt, info: string, session: SessionId, inherited: PlayerConfig): (r: (AccountExt, seq<Effect>))
    ensures r.0 == a
    ensures IsCallInProgress(a) ==> r.1 == [SessionHangup(session, None, None)]
    ensures !IsCallInProgress(a) ==>
              && |r.1| > 0
              && r.1[|r.1| - 1] == Emit(IncomingCallNote(info, Calls.New(session, None, inherited).0))
              && forall e :: e in r.1 ==> !e.SessionHangup? && !e.SessionAnswer?
    ensures !IsCallInProgress(a) ==>
              r.1 == Calls.New(session, None, inherited).1 + [Emit(IncomingCallNote(info, Calls.New(session, None, inherited).0))]
  {
    if IsCallInProgress(a) then (a, [SessionHangup(session, None, None)])
    else
      var (c, effs) := Calls.New(session, None, inherited);
      (a, effs + [Emit(IncomingCallNote(info, c))])
  }

  /** A DTMF digit reaches the active call, if there is one. */
  function OnDtmf(a: AccountExt, digit: string): (r: seq<Effect>)
    ensures !IsCallInProgress(a) ==> r == []
    ensures IsCallInProgress(a) ==> r == [Emit(DtmfNote(a.call.value.session, digit))]
  {
    match a.call
    case None => []
    case Some(c) => Calls.OnDtmf(c, digit)
  }

  /** A media negotiation reaches the active call, if there is one; the
      call keeps its session and only its media list can change. */
  function OnMedia(a: AccountExt, medias: seq<MediaId>): (r: (AccountExt, seq<Effect>))
    ensures r.0.state == a.state
    ensures r.0.call.Some? <==> a.call.Some?
    ensures a.call.Some? ==> r.0.call.value.session == a.call.value.session
    ensures a.call.Some? && |medias| > 0 ==> r.0.call.value.medias == Some(medias)
    ensures a.call.None? || |medias| == 0 ==> r == (a, [])
    ensures a.call.Some? ==>
              var (c', effs) := Calls.OnMedia(a.call.value, medias);
              r == (a.(call := Some(c')), effs)
  {
    match a.call
    case None => (a, [])
    case Some(c) =>
      var (c', effs) := Calls.OnMedia(c, medias);
      (a.(call := Some(c')), effs)
  }

  /** The session of the active call ended: the active call closes its
      media (and throws when it has none). With no active call nothing
      happens. */
  function OnDisconnected(a: AccountExt): (r: Outcome<seq<Effect>>)
    ensures a.call.None? ==> r == Done([])
    ensures a.call.Some? ==> r == Calls.OnDisconnected(a.call.value)
    ensures r.Throws? <==> a.call.Some? && a.call.value.medias.None?
  {
    match a.call
    case None => Done([])
    case Some(c) => Calls.OnDisconnected(c)
  }

  /** Which of the four registration events the engine reports. */
  datatype RegEvent = RegisteringEvent | RegisteredEvent | UnregisteringEvent | UnregisteredEvent

  function OnRegEvent(a: AccountExt, ev: RegEvent): (AccountExt, seq<Effect>)
  {
    match ev
    case RegisteringEvent => OnRegistering(a)
    case RegisteredEvent => OnRegistered(a)
    case UnregisteringEvent => OnUnregistering(a)
    case UnregisteredEvent => OnUnregistered(a)
  }

  /** Each registration event sets the state to one value fixed by the
      event alone, whatever the state was before, and leaves the active
      call untouched; no event ever produces the correctly spelt
      `Unregistered`, and distinct events produce distinct states. */
  lemma RegistrationEventsTouchOnlyState(a: AccountExt, b: AccountExt, ev: RegEvent, ev': RegEvent)
    ensures OnRegEvent(a, ev).0.call == a.call
    ensures OnRegEvent(a, ev).0.state == OnRegEvent(b, ev).0.state
    ensures OnRegEvent(a, ev).0.state != Unregistered
    ensures ev != ev' ==> OnRegEvent(a, ev).0.state != OnRegEvent(a, ev').0.state
  {
  }
}

=== FILE: calls.dfy ===
/** The CallExt wrapper: media attach on negotiation, media close on
    disconnection, and the answer / hangup commands it forwards to its
    session. Native media objects appear only as effect-log entries. */
module Calls {
  import opened Types

  /** The configuration a new wrapper uses: its own when one is given,
      otherwise the one inherited from its account. */
  function EffectiveConfig(own: Option<PlayerConfig>, inherited: PlayerConfig): PlayerConfig
  {
    match own
    case Some(cfg) => cfg
    case None => inherited
  }

  /** Constructing a wrapper for `session`: it has no media yet, and it
      acquires a player and a recorder exactly when the effective
      configuration names their files. */
  function New(session: SessionId, own: Option<PlayerConfig>, inherited: PlayerConfig): (r: (CallExt, seq<Effect>))
    ensures r.0.session == session && r.0.medias.None?
    ensures r.0.player <==> EffectiveConfig(own, inherited).player.Some?
    ensures r.0.recorder <==> EffectiveConfig(own, inherited).recorder.Some?
    ensures forall e :: e in r.1 ==> (e.CreatePlayer? || e.CreateRecorder?) && e.session == session
    ensures EffectiveConfig(own, inherited).player.Some? ==>
              CreatePlayer(session, EffectiveConfig(own, inherited).player.value) in r.1
    ensures EffectiveConfig(own, inherited).recorder.Some? ==>
              CreateRecorder(session, EffectiveConfig(own, inherited).recorder.value) in r.1
    ensures forall e :: e in r.1 && e.CreatePlayer? ==> EffectiveConfig(own, inherited).player == Some(e.file)
    ensures forall e :: e in r.1 && e.CreateRecorder? ==> EffectiveConfig(own, inherited).recorder == Some(e.file)
    ensures |r.1| == (if r.0.player then 1 else 0) + (if r.0.recorder then 1 else 0)
  {
    var cfg := EffectiveConfig(own, inherited);
    var player := match cfg.player
      case Some(f) => [CreatePlayer(session, f)]
      case None => [];
    var recorder := match cfg.recorder
      case Some(f) => [CreateRecorder(session, f)]
      case None => [];
    (CallExt(session, cfg.player.Some?, cfg.recorder.Some?, None), player + recorder)
  }

  /** The transmission links a call keeps with media stream `m`: player
      into the stream, stream into the recorder. */
  function Links(c: CallExt, m: MediaId): set<(Port, Port)>
  {
    (if c.player then {(PlayerOf(c.session), MediaPort(m))} else {})
    + (if c.recorder then {(MediaPort(m), RecorderOf(c.session))} else {})
  }

  /** The links an effect sequence starts. */
  function Started(effs: seq<Effect>): set<(Port, Port)>
  {
    set e | e in effs && e.StartTransmit? :: (e.from, e.to)
  }

  /** The links an effect sequence stops. */
  function Stopped(effs: seq<Effect>): set<(Port, Port)>
  {
    set e | e in effs && e.StopTransmit? :: (e.from, e.to)
  }

  /** The media streams an effect sequence closes, in order. */
  function Closed(effs: seq<Effect>): seq<MediaId>
  {
    if |effs| == 0 then []
    else (if effs[0].CloseMedia? then [effs[0].media] else []) + Closed(effs[1..])
  }

  /** Media negotiation: an empty list changes nothing; otherwise the
      links with the first stream are started and the list replaces the
      stored one. */
  function OnMedia(c: CallExt, medias: seq<MediaId>): (r: (CallExt, seq<Effect>))
    ensures |medias| == 0 ==> r == (c, [])
    ensures |medias| > 0 ==> r.0 == c.(medias := Some(medias))
    ensures forall e :: e in r.1 ==> e.StartTransmit?
    ensures |medias| > 0 ==> Started(r.1) == Links(c, medias[0])
  {
    if |medias| == 0 then (c, [])
    else
      var toPlayer := if c.player then [StartTransmit(PlayerOf(c.session), MediaPort(medias[0]))] else [];
      var toRecorder := if c.recorder then [StartTransmit(MediaPort(medias[0]), RecorderOf(c.session))] else [];
      var effs := toPlayer + toRecorder;
      assert forall e :: e in effs ==> e in toPlayer || e in toRecorder;
      (c.(medias := Some(medias)), effs)
  }

  /** Closing every stream of a list, one close per entry. */
  function CloseAll(ms: seq<MediaId>): (r: seq<Effect>)
    ensures |r| == |ms|
    ensures forall i :: 0 <= i < |ms| ==> r[i] == CloseMedia(ms[i])
  {
    if |ms| == 0 then [] else [CloseMedia(ms[0])] + CloseAll(ms[1..])
  }

  /** The session ended: every stored stream is closed, then observers are
      told. A call that never stored media throws instead, because the
      source iterates over an undefined list. */
  function OnDisconnected(c: CallExt): (r: Outcome<seq<Effect>>)
    ensures r.Throws? <==> c.medias.None?
    ensures r.Throws? ==> r.fault == MediasUndefined(c.session)
    ensures r.Done? ==>
              && |r.value| == |c.medias.value| + 1
              && (forall i :: 0 <= i < |c.medias.value| ==> r.value[i] == CloseMedia(c.medias.value[i]))
              && r.value[|c.medias.value|] == Emit(CallDisconnectedNote(c.session))
  {
    match c.medias
    case None => Throws(MediasUndefined(c.session))
    case Some(ms) => Done(CloseAll(ms) + [Emit(CallDisconnectedNote(c.session))])
  }

  /** A DTMF digit received on the session is re-emitted to observers. */
  function OnDtmf(c: CallExt, digit: string): seq<Effect>
  {
    [Emit(DtmfNote(c.session, digit))]
  }

  /** Answering forwards the status code and reason to the session. */
  function Answer(c: CallExt, code: Option<int>, reason: Option<string>): seq<Effect>
  {
    [SessionAnswer(c.session, code, reason)]
  }

  /** Hanging up: when media is attached, the links with the first stream
      are stopped first; then the session is told to hang up. */
  function Hangup(c: CallExt, code: Option<int>, reason: Option<string>): (r: seq<Effect>)
    ensures |r| > 0 && r[|r| - 1] == SessionHangup(c.session, code, reason)
    ensures forall i :: 0 <= i < |r| - 1 ==> r[i].StopTransmit?
    ensures Stopped(r) == (if c.medias.Some? && |c.medias.value| > 0 then Links(c, c.medias.value[0]) else {})
  {
    var stops :=
      if c.medias.Some? && |c.medias.value| > 0 then
        var m := c.medias.value[0];
        (if c.player then [StopTransmit(PlayerOf(c.session), MediaPort(m))] else [])
        + (if c.recorder then [StopTransmit(MediaPort(m), RecorderOf(c.session))] else [])
      else [];
    var r := stops + [SessionHangup(c.session, code, reason)];
    assert forall e :: e in r ==> e in stops || e == SessionHangup(c.session, code, reason);
    r
  }

  /** Closing a list emits exactly one close per stored stream, in order. */
  lemma {:induction false} ClosedCloseAll(ms: seq<MediaId>)
    ensures Closed(CloseAll(ms)) == ms
  {
    if |ms| > 0 {
      var r := CloseAll(ms);
      assert r[1..] == CloseAll(ms[1..]);
      ClosedCloseAll(ms[1..]);
    }
  }

  lemma {:induction false} ClosedAppend(a: seq<Effect>, b: seq<Effect>)
    ensures Closed(a + b) == Closed(a) + Closed(b)
  {
    if |a| > 0 {
      assert (a + b)[1..] == a[1..] + b;
      ClosedAppend(a[1..], b);
    } else {
      assert a + b == b;
    }
  }

  /** On disconnection the streams closed are exactly the stored ones,
      each as often as it is stored. */
  lemma DisconnectClosesStoredMedia(c: CallExt)
    requires c.medias.Some?
    ensures OnDisconnected(c).Done?
    ensures Closed(OnDisconnected(c).value) == c.medias.value
  {
    var ms := c.medias.value;
    ClosedCloseAll(ms);
    ClosedAppend(CloseAll(ms), [Emit(CallDisconnectedNote(c.session))]);
    assert Closed([Emit(CallDisconnectedNote(c.session))]) == [];
  }

  /** Hanging up after a non-empty media negotiation stops exactly the
      links that negotiation started. */
  lemma HangupStopsWhatMediaStarted(c: CallExt, medias: seq<MediaId>, code: Option<int>, reason: Option<string>)
    requires |medias| > 0
    ensures Stopped(Hangup(OnMedia(c, medias).0, code, reason)) == Started(OnMedia(c, medias).1)
  {
  }

  /** A later negotiation replaces the stored list, whatever it held. */
  lemma MediaReplacesPrevious(c: CallExt, first: seq<MediaId>, second: seq<MediaId>)
    requires |second| > 0
    ensures OnMedia(OnMedia(c, first).0, second).0.medias == Some(second)
    ensures OnMedia(OnMedia(c, first).0, second).0.session == c.session
  {
  }
}

=== FILE: properties.dfy ===
/** Properties of the user agent over whole runs: settled results never
    change, an active call is never replaced by another, and the
    misspelt unregistered state makes the no-op branch of account removal
    unreachable. */
module Properties {
  import opened Types
  import Accounts
  import opened UserAgent

  // ---------------------------------------------------------------- exactly-once settlement

  /** Along any run, a result that has been settled keeps its settlement:
      late or duplicate events cannot settle a promise a second time. */
  lemma {:induction false} RunKeepsSettlements(u: Ua, inputs: seq<Input>)
    ensures Follows(u.results, Run(u, inputs).results)
    decreases |inputs|
  {
    if |inputs| > 0 {
      var u1 := Step(u, inputs[0]);
      RunKeepsSettlements(u1, inputs[1..]);
      FollowsTransitive(u.results, u1.results, Run(u, inputs).results);
    }
  }

  /** The same fact, stated for one result: once result `id` is settled at
      some point of a run, every later point of the run shows that same
      settlement. */
  lemma SettledOnce(u: Ua, before: seq<Input>, after: seq<Input>, id: ResultId)
    requires id < |Run(u, before).results|
    requires !Run(u, before).results[id].Pending?
    ensures id < |Run(Run(u, before), after).results|
    ensures Run(Run(u, before), after).results[id] == Run(u, before).results[id]
  {
    RunKeepsSettlements(Run(u, before), after);
  }

  // ---------------------------------------------------------------- one active call

  /** A step never swaps the active call for another: it stays (with the
      same session), or it ends, and it can only end on a `disconnected`
      event. A call only becomes active through makeCall or answer, and
      only when no call was active. */
  lemma StepNeverReplacesCall(u: Ua, i: Input)
    ensures ActiveSession(u).Some? ==>
              ActiveSession(Step(u, i)) == ActiveSession(u) || ActiveSession(Step(u, i)).None?
    ensures ActiveSession(u).Some? && ActiveSession(Step(u, i)).None? ==>
              i.SessionReports? && i.sessionEvent == StateChanged(InvDisconnected)
    ensures ActiveSession(Step(u, i)).Some? && ActiveSession(Step(u, i)) != ActiveSession(u) ==>
              ActiveSession(u).None? && (i.DoMakeCall? || i.DoAnswer?)
  {
  }

  // ---------------------------------------------------------------- the misspelt state

  /** The account, when there is one, is never in the correctly spelt
      `Unregistered` state. */
  ghost predicate SpelledAsWritten(u: Ua)
  {
    u.account.Some? ==> u.account.value.state != Unregistered
  }

  lemma ApplyAccountKeepsSpelling(u: Ua, h: AccountHandler, e: AccountEvent, session: SessionId)
    requires SpelledAsWritten(u)
    ensures SpelledAsWritten(ApplyAccount(u, h, e, session))
  {
    match u.account
    case None =>
    case Some(a) =>
      forall ev: Accounts.RegEvent
        ensures Accounts.OnRegEvent(a, ev).0.state != Unregistered
      {
        Accounts.RegistrationEventsTouchOnlyState(a, a, ev, ev);
      }
  }

  lemma {:induction false} RunAccountKeepsSpelling(u: Ua, hs: seq<AccountHandler>, e: AccountEvent, session: SessionId)
    requires SpelledAsWritten(u)
    ensures SpelledAsWritten(RunAccount(u, hs, e, session))
    decreases |hs|
  {
    if |hs| > 0 {
      var u1 := ApplyAccount(u, hs[0], e, session);
      ApplyAccountKeepsSpelling(u, hs[0], e, session);
      RunAccountKeepsSpelling(u1, hs[1..], e, session);
    }
  }

  lemma StepKeepsSpelling(u: Ua, i: Input)
    requires SpelledAsWritten(u)
    ensures SpelledAsWritten(Step(u, i))
  {
    match i
    case AccountReports(e) =>
      var u0 := if e.CallArrived? then u.(sessions := u.sessions + 1) else u;
      RunAccountKeepsSpelling(u0, AccountMatching(u.accountListeners, e), e, u.sessions);
    case _ =>
  }

  lemma {:induction false} RunKeepsSpelling(u: Ua, inputs: seq<Input>)
    requires SpelledAsWritten(u)
    ensures SpelledAsWritten(Run(u, inputs))
    decreases |inputs|
  {
    if |inputs| > 0 {
      StepKeepsSpelling(u, inputs[0]);
      RunKeepsSpelling(Step(u, inputs[0]), inputs[1..]);
    }
  }

  /** In every state a run from a fresh user agent reaches, account removal
      never takes its "already unregistered" no-op branch: the state it
      compares against is never written. */
  lemma RemoveAccountNoOpUnreachable(config: PlayerConfig, inputs: seq<Input>)
    ensures var u := Run(Init(config), inputs);
            RemoveAccount(u).0.results[RemoveAccount(u).1] != Resolved(Undefined)
  {
    RunKeepsSpelling(Init(config), inputs);
  }

  // ---------------------------------------------------------------- removed listeners

  /** A session without listeners ignores every event it raises. */
  lemma SilentSessionIgnoresEvents(u: Ua, s: SessionId, e: SessionEvent)
    requires Listeners(u, s) == []
    ensures OnSessionEvent(u, s, e) == u
  {
  }

  /** An engine account without listeners ignores every event; an inbound
      call still opens a session, which nobody answers or hangs up. */
  lemma SilentAccountIgnoresEvents(u: Ua, e: AccountEvent)
    requires u.accountListeners == []
    ensures OnAccountEvent(u, e) == (if e.CallArrived? then u.(sessions := u.sessions + 1) else u)
  {
  }

  // ---------------------------------------------------------------- results nobody can settle

  /** Result `id` has been handed out and no listener, on any session or on
      the account, settles it any more. */
  ghost predicate Orphaned(u: Ua, id: ResultId)
  {
    && id < |u.results|
    && (forall t: SessionId, h :: h in Listeners(u, t) ==> SessionSettles(h) != Some(id))
    && (forall h :: h in u.accountListeners ==> AccountSettles(h) != Some(id))
  }

  lemma {:induction false} RunSessionKeepsOrphan(u: Ua, s: SessionId, hs: seq<SessionHandler>, e: SessionEvent, id: ResultId)
    requires Orphaned(u, id)
    requires forall h :: h in hs ==> SessionSettles(h) != Some(id)
    ensures Orphaned(RunSession(u, s, hs, e).0, id)
    ensures RunSession(u, s, hs, e).0.results[id] == u.results[id]
    decreases |hs|
  {
    if |hs| > 0 {
      var (u1, ok) := ApplySession(u, s, hs[0], e);
      assert hs[0] in hs;
      forall t: SessionId, h | h in Listeners(u1, t)
        ensures SessionSettles(h) != Some(id)
      {
        assert Listeners(u1, t) == Listeners(u, t) || Listeners(u1, t) == [];
      }
      if ok {
        forall h | h in hs[1..]
          ensures SessionSettles(h) != Some(id)
        {
          assert h in hs;
        }
        RunSessionKeepsOrphan(u1, s, hs[1..], e, id);
      }
    }
  }

  lemma {:induction false} RunAccountKeepsOrphan(u: Ua, hs: seq<AccountHandler>, e: AccountEvent, session: SessionId, id: ResultId)
    requires Orphaned(u, id)
    requires forall h :: h in hs ==> AccountSettles(h) != Some(id)
    ensures Orphaned(RunAccount(u, hs, e, session), id)
    ensures RunAccount(u, hs, e, session).results[id] == u.results[id]
    decreases |hs|
  {
    if |hs| > 0 {
      var u1 := ApplyAccount(u, hs[0], e, session);
      assert hs[0] in hs;
      assert forall t: SessionId :: Listeners(u1, t) == Listeners(u, t);
      forall h | h in hs[1..]
        ensures AccountSettles(h) != Some(id)
      {
        assert h in hs;
      }
      RunAccountKeepsOrphan(u1, hs[1..], e, session, id);
    }
  }

  /** An operation's new listeners settle only its own, new result. */
  lemma OperationKeepsOrphan(u: Ua, i: Input, id: ResultId)
    requires Orphaned(u, id)
    requires !i.AccountReports? && !i.SessionReports?
    ensures Orphaned(Step(u, i), id)
    ensures Step(u, i).results[id] == u.results[id]
  {
    match i
    case DoMakeAccount => MakeAccountKeepsOrphan(u, id);
    case DoRemoveAccount =>
      var r := RemoveAccount(u).0;
      assert forall t: SessionId :: Listeners(r, t) == Listeners(u, t);
    case DoMakeCall(d) =>
      if u.account.Some? { MakeCallKeepsOrphan(u, d, id); }
    case DoAnswer(c, code, reason) =>
      if u.account.Some? { AnswerKeepsOrphan(u, c, code, reason, id); }
    case DoHangup(code, reason) =>
      if u.account.Some? { HangupKeepsOrphan(u, code, reason, id); }
    case DoSetRegistration(renew) =>
      if u.account.Some? {
        var r := SetRegistration(u, renew);
        assert forall t: SessionId :: Listeners(r, t) == Listeners(u, t);
      }
  }

  lemma MakeAccountKeepsOrphan(u: Ua, id: ResultId)
    requires Orphaned(u, id)
    ensures Orphaned(MakeAccount(u).0, id) && MakeAccount(u).0.results[id] == u.results[id]
  {
    var r := MakeAccount(u).0;
    forall h | h in r.accountListeners
      ensures AccountSettles(h) != Some(id)
    {
      if h !in u.accountListeners {
        assert h in MakeAccountListeners(|u.results|);
      }
    }
    assert forall t: SessionId :: Listeners(r, t) == Listeners(u, t);
  }

  lemma MakeCallKeepsOrphan(u: Ua, d: string, id: ResultId)
    requires u.account.Some? && Orphaned(u, id)
    ensures Orphaned(MakeCall(u, d).0, id) && MakeCall(u, d).0.results[id] == u.results[id]
  {
    var r := MakeCall(u, d).0;
    forall t: SessionId, h | h in Listeners(r, t)
      ensures SessionSettles(h) != Some(id)
    {
      if h !in Listeners(u, t) {
        assert t == u.sessions;
        assert h in [ForwardDtmf, ForwardMedia, MakeCallState(|u.results|)];
      }
    }
  }

  lemma AnswerKeepsOrphan(u: Ua, c: CallExt, code: Option<int>, reason: Option<string>, id: ResultId)
    requires u.account.Some? && Orphaned(u, id)
    ensures Orphaned(Answer(u, c, code, reason).0, id) && Answer(u, c, code, reason).0.results[id] == u.results[id]
  {
    var r := Answer(u, c, code, reason).0;
    forall t: SessionId, h | h in Listeners(r, t)
      ensures SessionSettles(h) != Some(id)
    {
      if h !in Listeners(u, t) {
        assert t == c.session;
        assert h in [ForwardDtmf, ForwardMedia, AnswerState(|u.results|)];
      }
    }
  }

  lemma HangupKeepsOrphan(u: Ua, code: Option<int>, reason: Option<string>, id: ResultId)
    requires u.account.Some? && Orphaned(u, id)
    ensures Orphaned(Hangup(u, code, reason).0, id) && Hangup(u, code, reason).0.results[id] == u.results[id]
  {
    var r := Hangup(u, code, reason).0;
    if Accounts.IsCallInProgress(u.account.value) {
      forall t: SessionId, h | h in Listeners(r, t)
        ensures SessionSettles(h) != Some(id)
      {
        if t == u.account.value.call.value.session {
          assert h == HangupState(|u.results|);
        }
      }
    } else {
      assert forall t: SessionId :: Listeners(r, t) == Listeners(u, t);
    }
  }

  /** No step settles an orphaned result, and it stays orphaned. */
  lemma StepKeepsOrphan(u: Ua, i: Input, id: ResultId)
    requires Orphaned(u, id)
    ensures Orphaned(Step(u, i), id)
    ensures Step(u, i).results[id] == u.results[id]
  {
    match i
    case AccountReports(e) =>
      var u0 := if e.CallArrived? then u.(sessions := u.sessions + 1) else u;
      assert forall t: SessionId :: Listeners(u0, t) == Listeners(u, t);
      var hs := AccountMatching(u.accountListeners, e);
      forall h | h in hs
        ensures AccountSettles(h) != Some(id)
      {
        AccountMatchingSelects(u.accountListeners, e, h);
      }
      RunAccountKeepsOrphan(u0, hs, e, u.sessions, id);
    case SessionReports(s, e) =>
      var hs := SessionMatching(Listeners(u, s), e);
      forall h | h in hs
        ensures SessionSettles(h) != Some(id)
      {
        SessionMatchingSelects(Listeners(u, s), e, h);
      }
      RunSessionKeepsOrphan(u, s, hs, e, id);
    case _ =>
      OperationKeepsOrphan(u, i, id);
  }

  /** A result that no listener settles keeps its value, pending or not,
      along every run: nothing but its own listeners ever settles a result. */
  lemma {:induction false} RunKeepsOrphan(u: Ua, inputs: seq<Input>, id: ResultId)
    requires Orphaned(u, id)
    ensures Orphaned(Run(u, inputs), id)
    ensures Run(u, inputs).results[id] == u.results[id]
    decreases |inputs|
  {
    if |inputs| > 0 {
      StepKeepsOrphan(u, inputs[0], id);
      RunKeepsOrphan(Step(u, inputs[0]), inputs[1..], id);
    }
  }

  /** Hanging up replaces every listener of the active call's session. A
      result pending there (a makeCall, an answer or an earlier hangup) and
      settled by no other listener is then never settled, whatever follows. */
  lemma HangupStrandsPending(u: Ua, code: Option<int>, reason: Option<string>, id: ResultId, inputs: seq<Input>)
    requires u.account.Some? && Accounts.IsCallInProgress(u.account.value)
    requires id < |u.results| && u.results[id].Pending?
    requires Orphaned(SetListeners(u, u.account.value.call.value.session, []), id)
    ensures Orphaned(Hangup(u, code, reason).0, id)
    ensures id < |Run(Hangup(u, code, reason).0, inputs).results|
    ensures Run(Hangup(u, code, reason).0, inputs).results[id] == Pending
  {
    var t := u.account.value.call.value.session;
    var (u1, k) := Hangup(u, code, reason);
    forall t': SessionId, h | h in Listeners(u1, t')
      ensures SessionSettles(h) != Some(id)
    {
      if t' == t {
        assert h == HangupState(k);
      } else {
        assert Listeners(u1, t') == Listeners(SetListeners(u, t, []), t');
      }
    }
    RunKeepsOrphan(u1, inputs, id);
  }
}

=== FILE: scenarios.dfy ===
/** Event sequences the operations are designed around, followed from the
    call of the operation to the settlement of its result, and beyond it
    to show that late events change nothing. */
module Scenarios {
  import opened Types
  import Calls
  import Accounts
  import opened UserAgent
  import opened Properties

  // ---------------------------------------------------------------- snapshots of one listener

  lemma RunSessionOne(u: Ua, s: SessionId, h: SessionHandler, e: SessionEvent)
    ensures RunSession(u, s, [h], e) == ApplySession(u, s, h, e)
  {
    var (u1, ok) := ApplySession(u, s, h, e);
    if ok {
      assert [h][1..] == [];
    }
  }

  lemma RunAccountOne(u: Ua, h: AccountHandler, e: AccountEvent, session: SessionId)
    ensures RunAccount(u, [h], e, session) == ApplyAccount(u, h, e, session)
  {
    assert [h][1..] == [];
  }

  lemma SessionMatchingOne(h: SessionHandler, e: SessionEvent)
    ensures SessionMatching([h], e) == if SessionListens(h, e) then [h] else []
  {
    assert [h][1..] == [];
  }

  lemma AccountMatchingOne(h: AccountHandler, e: AccountEvent)
    ensures AccountMatching([h], e) == if AccountListens(h, e) then [h] else []
  {
    assert [h][1..] == [];
  }

  /** Of the three listeners makeCall and answer attach, each event kind
      reaches exactly one. */
  lemma CallListenersMatching(h: SessionHandler, e: SessionEvent)
    requires h.MakeCallState? || h.AnswerState?
    ensures SessionMatching([ForwardDtmf, ForwardMedia, h], e) ==
              match e
              case StateChanged(_) => [h]
              case DtmfReceived(_) => [ForwardDtmf]
              case MediaReady(_) => [ForwardMedia]
  {
    assert [ForwardDtmf, ForwardMedia, h] == [ForwardDtmf] + [ForwardMedia] + [h];
    SessionMatchingAppend([ForwardDtmf] + [ForwardMedia], [h], e);
    SessionMatchingAppend([ForwardDtmf], [ForwardMedia], e);
    SessionMatchingOne(ForwardDtmf, e);
    SessionMatchingOne(ForwardMedia, e);
    SessionMatchingOne(h, e);
  }

  /** A state event reaching the call listeners runs the state listener alone. */
  lemma CallStateEvent(u: Ua, s: SessionId, h: SessionHandler, st: CallState)
    requires h.MakeCallState? || h.AnswerState?
    requires Listeners(u, s) == [ForwardDtmf, ForwardMedia, h]
    ensures OnSessionEvent(u, s, StateChanged(st)) == ApplySession(u, s, h, StateChanged(st)).0
  {
    CallListenersMatching(h, StateChanged(st));
    RunSessionOne(u, s, h, StateChanged(st));
  }

  /** A media event reaching the call listeners runs the media forwarder alone. */
  lemma CallMediaEvent(u: Ua, s: SessionId, h: SessionHandler, ms: seq<MediaId>)
    requires h.MakeCallState? || h.AnswerState?
    requires Listeners(u, s) == [ForwardDtmf, ForwardMedia, h]
    ensures OnSessionEvent(u, s, MediaReady(ms)) == ApplySession(u, s, ForwardMedia, MediaReady(ms)).0
  {
    CallListenersMatching(h, MediaReady(ms));
    RunSessionOne(u, s, ForwardMedia, MediaReady(ms));
  }

  // ---------------------------------------------------------------- makeCall

  /** The state a successful makeCall leaves, for the lemmas below. */
  ghost predicate Dialling(u: Ua, s: SessionId, id: ResultId)
  {
    && u.account.Some? && ActiveSession(u) == Some(s)
    && id < |u.results| && u.results[id].Pending?
    && Listeners(u, s) == [ForwardDtmf, ForwardMedia, MakeCallState(id)]
  }

  lemma MakeCallDials(u: Ua, destination: string)
    requires u.account.Some? && u.account.value.state == Registered && !Accounts.IsCallInProgress(u.account.value)
    requires Listeners(u, u.sessions) == []
    ensures Dialling(MakeCall(u, destination).0, u.sessions, MakeCall(u, destination).1)
    ensures MakeCall(u, destination).0.account.value.call.value.medias.None?
  {
  }

  /** `confirmed` resolves makeCall with the active call, which stays active. */
  lemma MakeCallConfirmedResolves(u: Ua, s: SessionId, id: ResultId)
    requires Dialling(u, s, id)
    ensures OnSessionEvent(u, s, StateChanged(InvConfirmed)).results[id] == Resolved(CallHandle(s))
    ensures Dialling(OnSessionEvent(u, s, StateChanged(InvConfirmed)), s, id) == false
    ensures ActiveSession(OnSessionEvent(u, s, StateChanged(InvConfirmed))) == Some(s)
    ensures Listeners(OnSessionEvent(u, s, StateChanged(InvConfirmed)), s) == Listeners(u, s)
  {
    CallStateEvent(u, s, MakeCallState(id), StateChanged(InvConfirmed).state);
  }

  /** A non-empty media negotiation reaches the active call and changes
      nothing about the pending result. */
  lemma MakeCallMedia(u: Ua, s: SessionId, id: ResultId, ms: seq<MediaId>)
    requires Dialling(u, s, id)
    requires |ms| > 0
    ensures Dialling(OnSessionEvent(u, s, MediaReady(ms)), s, id)
    ensures OnSessionEvent(u, s, MediaReady(ms)).account.value.call.value.medias == Some(ms)
    ensures OnSessionEvent(u, s, MediaReady(ms)).results == u.results
  {
    CallMediaEvent(u, s, MakeCallState(id), ms);
  }

  /** `disconnected` after media: every listener of the session goes, the
      stored streams are closed, the call is no longer active and makeCall
      is rejected with "disconnected". Later events on the session do
      nothing at all. */
  lemma MakeCallDisconnectedRejects(u: Ua, s: SessionId, id: ResultId)
    requires Dialling(u, s, id)
    requires u.account.value.call.value.medias.Some?
    ensures var r := OnSessionEvent(u, s, StateChanged(InvDisconnected));
            && r.results[id] == Rejected(Disconnected)
            && ActiveSession(r).None?
            && Listeners(r, s) == []
            && |r.log| > |u.log|
            && Calls.Closed(r.log[|u.log|..]) == u.account.value.call.value.medias.value
            && r.log[|r.log| - 1] == Emit(CallDisconnectedNote(s))
            && forall e :: OnSessionEvent(r, s, e) == r
  {
    CallStateEvent(u, s, MakeCallState(id), InvDisconnected);
    var c := u.account.value.call.value;
    Calls.DisconnectClosesStoredMedia(c);
    var r := OnSessionEvent(u, s, StateChanged(InvDisconnected));
    assert r.log == u.log + Calls.OnDisconnected(c).value;
    assert r.log[|u.log|..] == Calls.OnDisconnected(c).value;
  }

  /** `confirmed` then `disconnected`: the call is torn down, but the
      result stays resolved with the call. */
  lemma MakeCallConfirmedThenDisconnected(u: Ua, s: SessionId, id: ResultId)
    requires Dialling(u, s, id)
    requires u.account.value.call.value.medias.Some?
    ensures var u1 := OnSessionEvent(u, s, StateChanged(InvConfirmed));
            var u2 := OnSessionEvent(u1, s, StateChanged(InvDisconnected));
            && u2.results[id] == Resolved(CallHandle(s))
            && ActiveSession(u2).None?
            && Listeners(u2, s) == []
  {
    var u1 := OnSessionEvent(u, s, StateChanged(InvConfirmed));
    MakeCallConfirmedResolves(u, s, id);
    CallStateEvent(u, s, MakeCallState(id), InvConfirmed);
    assert u1.account == u.account;
    CallStateEvent(u1, s, MakeCallState(id), InvDisconnected);
  }

  /** `disconnected` before any media was negotiated: closing the undefined
      media list throws after the listeners are gone, so the result is
      never settled and the call stays active for good; a new makeCall
      is refused as "call in progress". */
  lemma MakeCallDisconnectedBeforeMediaStrands(u: Ua, s: SessionId, id: ResultId, destination: string)
    requires Dialling(u, s, id)
    requires u.account.value.call.value.medias.None?
    ensures var r := OnSessionEvent(u, s, StateChanged(InvDisconnected));
            && r.results[id] == Pending
            && ActiveSession(r) == Some(s)
            && Listeners(r, s) == []
            && r.log == u.log + [Threw(MediasUndefined(s))]
            && (forall e :: OnSessionEvent(r, s, e) == r)
            && MakeCall(r, destination).0.results[MakeCall(r, destination).1] ==
                 (if r.account.value.state == Registered then Rejected(CallInProgress) else Rejected(NotRegistered))
  {
    CallStateEvent(u, s, MakeCallState(id), InvDisconnected);
  }

  // ---------------------------------------------------------------- answer

  /** Answering an offered call, then the session is confirmed, then media
      arrives, then the far end hangs up: answer resolves on `confirmed`;
      on `disconnected` the streams are closed, observers are told, the call
      is cleared, and the result stays resolved. */
  lemma AnswerLifecycle(u: Ua, c: CallExt, code: Option<int>, reason: Option<string>, ms: seq<MediaId>)
    requires u.account.Some? && !Accounts.IsCallInProgress(u.account.value)
    requires Listeners(u, c.session) == []
    requires |ms| > 0
    ensures var (u1, id) := Answer(u, c, code, reason);
            var u2 := OnSessionEvent(u1, c.session, StateChanged(InvConfirmed));
            var u3 := OnSessionEvent(u2, c.session, MediaReady(ms));
            var u4 := OnSessionEvent(u3, c.session, StateChanged(InvDisconnected));
            && u1.results[id] == Pending && ActiveSession(u1) == Some(c.session)
            && u2.results[id] == Resolved(Undefined)
            && u4.results[id] == Resolved(Undefined)
            && ActiveSession(u4).None?
            && Listeners(u4, c.session) == []
            && |u4.log| >= |u3.log|
            && Calls.Closed(u4.log[|u3.log|..]) == ms
            && u4.log[|u4.log| - 1] == Emit(CallDisconnectedNote(c.session))
  {
    var (u1, id) := Answer(u, c, code, reason);
    var t := c.session;
    var h := AnswerState(id);
    CallStateEvent(u1, t, h, InvConfirmed);
    var u2 := OnSessionEvent(u1, t, StateChanged(InvConfirmed));
    assert Listeners(u2, t) == Listeners(u1, t);
    CallMediaEvent(u2, t, h, ms);
    var u3 := OnSessionEvent(u2, t, MediaReady(ms));
    assert u3.account.value.call.value == c.(medias := Some(ms));
    assert Listeners(u3, t) == Listeners(u1, t);
    CallStateEvent(u3, t, h, InvDisconnected);
    var c3 := u3.account.value.call.value;
    Calls.DisconnectClosesStoredMedia(c3);
    var u4 := OnSessionEvent(u3, t, StateChanged(InvDisconnected));
    assert u4.log[|u3.log|..] == Calls.OnDisconnected(c3).value;
  }

  /** The far end drops an answered call before it is confirmed. After a
      media negotiation answer is rejected with "disconnected" and the call
      and its listeners are cleared; with no media ever stored the close
      throws and answer stays pending. */
  lemma AnswerDisconnectedRejects(u: Ua, c: CallExt, code: Option<int>, reason: Option<string>, ms: seq<MediaId>)
    requires u.account.Some? && !Accounts.IsCallInProgress(u.account.value)
    requires Listeners(u, c.session) == []
    requires |ms| > 0
    ensures var (u1, id) := Answer(u, c, code, reason);
            var u2 := OnSessionEvent(u1, c.session, MediaReady(ms));
            var u3 := OnSessionEvent(u2, c.session, StateChanged(InvDisconnected));
            && u3.results[id] == Rejected(Disconnected)
            && ActiveSession(u3).None?
            && Listeners(u3, c.session) == []
    ensures c.medias.None? ==>
              var (u1, id) := Answer(u, c, code, reason);
              var u2 := OnSessionEvent(u1, c.session, StateChanged(InvDisconnected));
              u2.results[id] == Pending && ActiveSession(u2) == Some(c.session)
  {
    var (u1, id) := Answer(u, c, code, reason);
    var t := c.session;
    var h := AnswerState(id);
    CallMediaEvent(u1, t, h, ms);
    var u2 := OnSessionEvent(u1, t, MediaReady(ms));
    assert Listeners(u2, t) == Listeners(u1, t);
    assert u2.account.value.call.value == c.(medias := Some(ms));
    CallStateEvent(u2, t, h, InvDisconnected);
    CallStateEvent(u1, t, h, InvDisconnected);
  }

  /** Answering while a call is active is refused and changes nothing else. */
  lemma AnswerWhileBusyRefused(u: Ua, c: CallExt, code: Option<int>, reason: Option<string>)
    requires u.account.Some? && Accounts.IsCallInProgress(u.account.value)
    ensures Answer(u, c, code, reason).0 == u.(results := u.results + [Rejected(CallingInProgress)])
    ensures ActiveSession(Answer(u, c, code, reason).0) == ActiveSession(u)
  {
  }

  // ---------------------------------------------------------------- hangup

  /** Hanging up leaves the result pending, and the call active, while the
      session raises anything but `disconnected`. */
  lemma HangupWaitsForDisconnect(u: Ua, code: Option<int>, reason: Option<string>, e: SessionEvent)
    requires u.account.Some? && Accounts.IsCallInProgress(u.account.value)
    ensures var t := u.account.value.call.value.session;
            var (u1, id) := Hangup(u, code, reason);
            && u1.results[id] == Pending
            && ActiveSession(u1) == Some(t)
            && (e != StateChanged(InvDisconnected) ==> OnSessionEvent(u1, t, e) == u1)
  {
    var t := u.account.value.call.value.session;
    var (u1, id) := Hangup(u, code, reason);
    var h := HangupState(id);
    assert [h][1..] == [];
    assert OnSessionEvent(u1, t, e) == RunSession(u1, t, SessionMatching([h], e), e).0;
    if e.StateChanged? {
      RunSessionOne(u1, t, h, e);
    }
  }

  /** On `disconnected` after a hangup, the call is cleared, the session's
      listeners are gone and the hangup resolves. */
  lemma HangupResolvesOnDisconnect(u: Ua, code: Option<int>, reason: Option<string>)
    requires u.account.Some? && Accounts.IsCallInProgress(u.account.value)
    requires u.account.value.call.value.medias.Some?
    ensures var t := u.account.value.call.value.session;
            var (u1, id) := Hangup(u, code, reason);
            var u2 := OnSessionEvent(u1, t, StateChanged(InvDisconnected));
            && u2.results[id] == Resolved(Undefined)
            && ActiveSession(u2).None?
            && Listeners(u2, t) == []
            && |u2.log| > |u1.log|
            && Calls.Closed(u2.log[|u1.log|..]) == u.account.value.call.value.medias.value
            && u2.log[|u2.log| - 1] == Emit(CallDisconnectedNote(t))
  {
    var c := u.account.value.call.value;
    var t := c.session;
    var (u1, id) := Hangup(u, code, reason);
    var h := HangupState(id);
    var e := StateChanged(InvDisconnected);
    assert [h][1..] == [];
    assert OnSessionEvent(u1, t, e) == RunSession(u1, t, SessionMatching([h], e), e).0;
    RunSessionOne(u1, t, h, e);
    Calls.DisconnectClosesStoredMedia(c);
    var u2 := OnSessionEvent(u1, t, e);
    assert u2.log == u1.log + Calls.OnDisconnected(c).value;
    assert u2.log[|u1.log|..] == Calls.OnDisconnected(c).value;
  }

  /** Hanging up while makeCall is still pending: the hangup resolves on
      `disconnected` (`HangupResolvesOnDisconnect`), but makeCall's state
      listener went with the hangup, so makeCall is left pending with no
      listener to settle it; `RunKeepsOrphan` carries that along every run. */
  lemma HangupStrandsMakeCall(u: Ua, s: SessionId, id: ResultId, code: Option<int>, reason: Option<string>)
    requires Dialling(u, s, id)
    requires u.account.value.call.value.medias.Some?
    requires Orphaned(SetListeners(u, s, []), id)
    ensures var u2 := OnSessionEvent(Hangup(u, code, reason).0, s, StateChanged(InvDisconnected));
            Orphaned(u2, id) && u2.results[id] == Pending
  {
    var (u1, k) := Hangup(u, code, reason);
    var e := StateChanged(InvDisconnected);
    assert u.account.value.call.value.session == s;
    HangupStrandsPending(u, code, reason, id, []);
    var hs := SessionMatching(Listeners(u1, s), e);
    forall h | h in hs
      ensures SessionSettles(h) != Some(id)
    {
      SessionMatchingSelects(Listeners(u1, s), e, h);
    }
    RunSessionKeepsOrphan(u1, s, hs, e, id);
  }

  // ---------------------------------------------------------------- makeAccount

  /** The listeners makeAccount attaches that listen to `e`, in order. */
  function MakeAccountReaching(id: ResultId, e: AccountEvent): seq<AccountHandler>
  {
    match e
    case StateReported(_, _) => [TimeoutOn408(id)]
    case CallArrived(_) => [ForwardCall]
    case RegisteringReported => [ForwardRegistering]
    case UnregisteringReported => [ForwardUnregistering]
    case UnregisteredReported => [RejectOnUnregistered(id)]
    case RegisteredReported => [ResolveOnceRegistered(id)]
  }

  /** Matching distributes over the listeners makeAccount attaches. */
  lemma MakeAccountMatchingSplit(id: ResultId, e: AccountEvent)
    ensures AccountMatching(PersistentListeners(id), e) ==
              AccountMatching([TimeoutOn408(id)], e) + AccountMatching([ForwardCall], e)
              + AccountMatching([ForwardRegistering], e) + AccountMatching([ForwardUnregistering], e)
              + AccountMatching([RejectOnUnregistered(id)], e)
    ensures AccountMatching(MakeAccountListeners(id), e) ==
              AccountMatching(PersistentListeners(id), e) + AccountMatching([ResolveOnceRegistered(id)], e)
  {
    var h0, h1, h2, h3, h4 := TimeoutOn408(id), ForwardCall, ForwardRegistering, ForwardUnregistering, RejectOnUnregistered(id);
    assert PersistentListeners(id) == [h0] + [h1] + [h2] + [h3] + [h4];
    AccountMatchingAppend(PersistentListeners(id), [ResolveOnceRegistered(id)], e);
    AccountMatchingAppend([h0] + [h1] + [h2] + [h3], [h4], e);
    AccountMatchingAppend([h0] + [h1] + [h2], [h3], e);
    AccountMatchingAppend([h0] + [h1], [h2], e);
    AccountMatchingAppend([h0], [h1], e);
  }

  /** Of the listeners makeAccount attaches, each event kind reaches one;
      once the `once` listener has removed itself, `registered` reaches none. */
  lemma MakeAccountMatching(id: ResultId, e: AccountEvent)
    ensures AccountMatching(PersistentListeners(id), e) ==
              if e.RegisteredReported? then [] else MakeAccountReaching(id, e)
    ensures AccountMatching(MakeAccountListeners(id), e) == MakeAccountReaching(id, e)
  {
    MakeAccountMatchingSplit(id, e);
    var m0 := AccountMatching([TimeoutOn408(id)], e);
    var m1 := AccountMatching([ForwardCall], e);
    var m2 := AccountMatching([ForwardRegistering], e);
    var m3 := AccountMatching([ForwardUnregistering], e);
    var m4 := AccountMatching([RejectOnUnregistered(id)], e);
    var m5 := AccountMatching([ResolveOnceRegistered(id)], e);
    AccountMatchingOne(TimeoutOn408(id), e);
    AccountMatchingOne(ForwardCall, e);
    AccountMatchingOne(ForwardRegistering, e);
    AccountMatchingOne(ForwardUnregistering, e);
    AccountMatchingOne(RejectOnUnregistered(id), e);
    AccountMatchingOne(ResolveOnceRegistered(id), e);
    match e
    case StateReported(_, _) =>
      assert m1 == m2 == m3 == m4 == m5 == [];
      assert m0 + m1 + m2 + m3 + m4 == m0;
    case CallArrived(_) =>
      assert m0 == m2 == m3 == m4 == m5 == [];
      assert m0 + m1 + m2 + m3 + m4 == m1;
    case RegisteringReported =>
      assert m0 == m1 == m3 == m4 == m5 == [];
      assert m0 + m1 + m2 + m3 + m4 == m2;
    case UnregisteringReported =>
      assert m0 == m1 == m2 == m4 == m5 == [];
      assert m0 + m1 + m2 + m3 + m4 == m3;
    case UnregisteredReported =>
      assert m0 == m1 == m2 == m3 == m5 == [];
      assert m0 + m1 + m2 + m3 + m4 == m4;
    case RegisteredReported =>
      assert m0 == m1 == m2 == m3 == m4 == [];
      assert m0 + m1 + m2 + m3 + m4 == [];
  }

  /** A status 408 before registration rejects makeAccount with "timeout"
      and leaves the engine account without listeners, so no later event
      reaches the account or the result. */
  lemma MakeAccountTimesOut(u: Ua, active: bool, later: AccountEvent)
    requires u.account.None? && u.accountListeners == []
    ensures var (u1, id) := MakeAccount(u);
            var u2 := OnAccountEvent(u1, StateReported(active, 408));
            && u2.results[id] == Rejected(Timeout)
            && u2.accountListeners == []
            && u2.account == Some(Accounts.New())
            && OnAccountEvent(u2, later).results == u2.results
            && OnAccountEvent(u2, later).account == u2.account
  {
    var (u1, id) := MakeAccount(u);
    assert u1.accountListeners == MakeAccountListeners(id);
    MakeAccountMatching(id, StateReported(active, 408));
    RunAccountOne(u1, TimeoutOn408(id), StateReported(active, 408), u1.sessions);
    var u2 := OnAccountEvent(u1, StateReported(active, 408));
    assert u2.accountListeners == [];
    assert AccountMatching(u2.accountListeners, later) == [];
  }

  /** With makeAccount's listeners attached and its result pending, a
      `registered` resolves the result, sets the state and removes only the
      `once` listener. */
  lemma RegisteredResolvesOnce(u: Ua, id: ResultId)
    requires u.account.Some? && u.accountListeners == MakeAccountListeners(id)
    requires id < |u.results| && u.results[id].Pending?
    ensures var r := OnAccountEvent(u, RegisteredReported);
            && r.results[id] == Resolved(Undefined)
            && r.account.value.state == Registered
            && r.accountListeners == PersistentListeners(id)
  {
    MakeAccountMatching(id, RegisteredReported);
    RunAccountOne(u, ResolveOnceRegistered(id), RegisteredReported, u.sessions);
    OnceListenerRemovesItself(id);
    var v := u.(accountListeners := PersistentListeners(id));
    assert OnAccountEvent(u, RegisteredReported)
        == SettleResult(RegEvent(v, Accounts.RegisteredEvent), id, Resolved(Undefined));
  }

  /** The first `registered` resolves makeAccount and removes only the
      `once` listener; the account is registered. */
  lemma MakeAccountRegisteredFirst(u: Ua)
    requires u.account.None? && u.accountListeners == []
    ensures var (u1, id) := MakeAccount(u);
            var u2 := OnAccountEvent(u1, RegisteredReported);
            && u2.results[id] == Resolved(Undefined)
            && u2.account.value.state == Registered
            && u2.accountListeners == PersistentListeners(id)
  {
    var (u1, id) := MakeAccount(u);
    RegisteredResolvesOnce(u1, id);
  }

  /** The `once` listener, removed, leaves the listeners attached with `on`. */
  lemma OnceListenerRemovesItself(id: ResultId)
    ensures RemoveLast(MakeAccountListeners(id), ResolveOnceRegistered(id)) == PersistentListeners(id)
  {
    var all := MakeAccountListeners(id);
    assert all[|all| - 1] == ResolveOnceRegistered(id);
    assert all[..|all| - 1] == PersistentListeners(id);
  }

  /** Once makeAccount has resolved, only the listeners attached with `on`
      remain: a later `registered` reaches none of them and changes nothing,
      while `registering` is still forwarded and moves the state. */
  lemma RefreshAfterResolve(u: Ua, id: ResultId)
    requires u.account.Some? && u.accountListeners == PersistentListeners(id)
    ensures OnAccountEvent(u, RegisteredReported) == u
    ensures var r := OnAccountEvent(u, RegisteringReported);
            && r.account == Some(u.account.value.(state := Registering))
            && r.accountListeners == u.accountListeners
            && r.results == u.results
  {
    MakeAccountMatching(id, RegisteredReported);
    MakeAccountMatching(id, RegisteringReported);
    RunAccountOne(u, ForwardRegistering, RegisteringReported, u.sessions);
  }

  /** A registration refresh (`registered`, `registering`, `registered`)
      leaves the account `registering` for good, because the listener that
      tracked `registered` was attached with `once`; makeCall and
      removeAccount are then refused as not registered. */
  lemma RegistrationRefreshSticks(u: Ua, destination: string)
    requires u.account.None? && u.accountListeners == []
    ensures var (u1, id) := MakeAccount(u);
            var u2 := OnAccountEvent(u1, RegisteredReported);
            var u3 := OnAccountEvent(OnAccountEvent(u2, RegisteringReported), RegisteredReported);
            && u2.account.value.state == Registered
            && u3.account.value.state == Registering
            && u3.accountListeners == PersistentListeners(id)
            && MakeCall(u3, destination).0.results[MakeCall(u3, destination).1] == Rejected(NotRegistered)
            && RemoveAccount(u3).0.results[RemoveAccount(u3).1] == Rejected(NotRegisteredIn(Registering))
  {
    var (u1, id) := MakeAccount(u);
    MakeAccountRegisteredFirst(u);
    var u2 := OnAccountEvent(u1, RegisteredReported);
    RefreshAfterResolve(u2, id);
    RefreshAfterResolve(OnAccountEvent(u2, RegisteringReported), id);
  }

  /** After makeAccount has settled, a 408 or an `unregistered` from the
      listeners it left cannot change the result; each still removes every
      listener, and `unregistered` moves the account to the misspelt state. */
  lemma MakeAccountLateEvents(u: Ua, id: ResultId, active: bool)
    requires u.account.Some? && u.accountListeners == PersistentListeners(id)
    requires id < |u.results| && !u.results[id].Pending?
    ensures var r := OnAccountEvent(u, StateReported(active, 408));
            r.results == u.results && r.accountListeners == [] && r.account == u.account
    ensures var r := OnAccountEvent(u, UnregisteredReported);
            && r.results == u.results
            && r.accountListeners == []
            && r.account.value.state == Unregistererd
  {
    LateTimeout(u, id, active);
    LateUnregistered(u, id);
  }

  lemma LateTimeout(u: Ua, id: ResultId, active: bool)
    requires u.account.Some? && u.accountListeners == PersistentListeners(id)
    requires id < |u.results| && !u.results[id].Pending?
    ensures var r := OnAccountEvent(u, StateReported(active, 408));
            r.results == u.results && r.accountListeners == [] && r.account == u.account
  {
    MakeAccountMatching(id, StateReported(active, 408));
    RunAccountOne(u, TimeoutOn408(id), StateReported(active, 408), u.sessions);
    assert u.results[id := u.results[id]] == u.results;
  }

  lemma LateUnregistered(u: Ua, id: ResultId)
    requires u.account.Some? && u.accountListeners == PersistentListeners(id)
    requires id < |u.results| && !u.results[id].Pending?
    ensures var r := OnAccountEvent(u, UnregisteredReported);
            && r.results == u.results
            && r.accountListeners == []
            && r.account.value.state == Unregistererd
  {
    MakeAccountMatching(id, UnregisteredReported);
    RunAccountOne(u, RejectOnUnregistered(id), UnregisteredReported, u.sessions);
    assert u.results[id := u.results[id]] == u.results;
  }

  /** An `unregistered` before registration rejects makeAccount with
      "unregistered", removes every listener and leaves the account in the
      misspelt state. */
  lemma MakeAccountUnregisteredFirst(u: Ua)
    requires u.account.None? && u.accountListeners == []
    ensures var (u1, id) := MakeAccount(u);
            var u2 := OnAccountEvent(u1, UnregisteredReported);
            && u2.results[id] == Rejected(UnregisteredError)
            && u2.accountListeners == []
            && u2.account.value.state == Unregistererd
  {
    var (u1, id) := MakeAccount(u);
    assert u1.accountListeners == MakeAccountListeners(id);
    MakeAccountMatching(id, UnregisteredReported);
    RunAccountOne(u1, RejectOnUnregistered(id), UnregisteredReported, u1.sessions);
  }

  /** An inbound call reaching a registered account (the listeners left
      after `registered`): with a call active the new session is hung up at
      once; otherwise a wrapper is offered to observers. The active call is
      the same before and after either way. */
  lemma InboundCallArbitration(u: Ua, id: ResultId, info: string)
    requires u.account.Some? && u.accountListeners == PersistentListeners(id)
    ensures var r := OnAccountEvent(u, CallArrived(info));
            && ActiveSession(r) == ActiveSession(u)
            && r.account == u.account
            && r.sessions == u.sessions + 1
            && (Accounts.IsCallInProgress(u.account.value) ==>
                  r.log == u.log + [SessionHangup(u.sessions, None, None)])
            && (!Accounts.IsCallInProgress(u.account.value) ==>
                  |r.log| > |u.log| && r.log[|r.log| - 1] == Emit(IncomingCallNote(info, Calls.New(u.sessions, None, u.config).0)))
  {
    MakeAccountMatching(id, CallArrived(info));
    var u0 := u.(sessions := u.sessions + 1);
    RunAccountOne(u0, ForwardCall, CallArrived(info), u.sessions);
    var (a', effs) := Accounts.OnCall(u.account.value, info, u.sessions, u.config);
    assert OnAccountEvent(u, CallArrived(info)) == Log(u0.(account := Some(a')), effs);
  }

  /** Making the account a second time modifies it in place and attaches a
      second set of listeners without removing the first: an inbound call is
      then handled twice, so observers are offered two wrappers for the one
      session. */
  lemma RemakeAccountDoublesListeners(u: Ua, info: string)
    requires u.account.None? && u.accountListeners == []
    ensures var (u1, id1) := MakeAccount(u);
            var (u2, id2) := MakeAccount(u1);
            && u2.account == u1.account
            && AccountMatching(u2.accountListeners, CallArrived(info)) == [ForwardCall, ForwardCall]
  {
    var (u1, id1) := MakeAccount(u);
    var (u2, id2) := MakeAccount(u1);
    assert u1.accountListeners == MakeAccountListeners(id1);
    AccountMatchingAppend(MakeAccountListeners(id1), MakeAccountListeners(id2), CallArrived(info));
    MakeAccountMatching(id1, CallArrived(info));
    MakeAccountMatching(id2, CallArrived(info));
  }

  // ---------------------------------------------------------------- removeAccount

  /** Removing a registered, idle account: the result stays pending until
      `unregistered`, then resolves; the account is left in the misspelt
      state with no listeners. */
  lemma RemoveAccountResolves(u: Ua)
    requires u.account.Some? && u.account.value.state == Registered && !Accounts.IsCallInProgress(u.account.value)
    ensures var (u1, id) := RemoveAccount(u);
            var u2 := OnAccountEvent(u1, UnregisteredReported);
            && u1.results[id] == Pending
            && u2.results[id] == Resolved(Undefined)
            && u2.account == Some(AccountExt(Unregistererd, None))
            && u2.accountListeners == []
  {
    var (u1, id) := RemoveAccount(u);
    AccountMatchingOne(ResolveOnUnregistered(id), UnregisteredReported);
    RunAccountOne(u1, ResolveOnUnregistered(id), UnregisteredReported, u1.sessions);
  }

  /** After removal a makeCall fails "not registered", and a second removal
      fails too, naming the misspelt state, because the no-op guard compares
      against the correct spelling. */
  lemma AfterRemoval(u: Ua, destination: string)
    requires u.account == Some(AccountExt(Unregistererd, None))
    ensures var (u1, id) := MakeCall(u, destination);
            && u1.results[id] == Rejected(NotRegistered)
            && Message(u1.results[id].error) == "not registered"
    ensures var (u2, id) := RemoveAccount(u);
            && u2.results[id] == Rejected(NotRegisteredIn(Unregistererd))
            && Message(u2.results[id].error) == "not registered, \"unregistererd\""
  {
    AfterRemovalMessages();
  }

  /** The removal sequence end to end: remove, makeCall, remove again. */
  lemma RemoveAccountThenRetry(u: Ua, destination: string)
    requires u.account.Some? && u.account.value.state == Registered && !Accounts.IsCallInProgress(u.account.value)
    ensures var u2 := OnAccountEvent(RemoveAccount(u).0, UnregisteredReported);
            var (u3, id2) := MakeCall(u2, destination);
            && u3.results[id2] == Rejected(NotRegistered)
            && RemoveAccount(u3).0.results[RemoveAccount(u3).1] == Rejected(NotRegisteredIn(Unregistererd))
  {
    RemoveAccountResolves(u);
    var u2 := OnAccountEvent(RemoveAccount(u).0, UnregisteredReported);
    AfterRemoval(u2, destination);
    var (u3, id2) := MakeCall(u2, destination);
    assert u3.account == u2.account;
    AfterRemoval(u3, destination);
  }

  /** Removing the account while makeAccount is still pending: the new
      account starts out `registered`, so removal passes its guards, and
      replacing every account listener removes the ones that would settle
      makeAccount. Removal itself resolves on `unregistered`; makeAccount
      stays pending along every later run. */
  lemma RemoveAccountStrandsMakeAccount(config: PlayerConfig, inputs: seq<Input>)
    ensures var (u1, id1) := MakeAccount(Init(config));
            var (u2, id2) := RemoveAccount(u1);
            && u2.results[id2] == Pending
            && OnAccountEvent(u2, UnregisteredReported).results[id2] == Resolved(Undefined)
            && id1 < |Run(u2, inputs).results|
            && Run(u2, inputs).results[id1] == Pending
  {
    var (u1, id1) := MakeAccount(Init(config));
    var (u2, id2) := RemoveAccount(u1);
    RemoveAccountResolves(u1);
    assert forall t: SessionId :: Listeners(u2, t) == [];
    assert Orphaned(u2, id1);
    RunKeepsOrphan(u2, inputs, id1);
  }

  /** A second removeAccount while the first is pending: the first removal
      replaced every account listener, including the one that would move the
      state to `unregistering`, so the account is still `registered` and the
      second removal passes its guards. Its own replacement of the account
      listeners removes the first removal's resolver, which is left pending
      with nothing to settle it; `RunKeepsOrphan` carries that along every
      run. */
  lemma SecondRemoveAccountStrandsFirst(u: Ua)
    requires u.account.Some? && u.account.value.state == Registered && !Accounts.IsCallInProgress(u.account.value)
    requires forall t: SessionId, h :: h in Listeners(u, t) ==> SessionSettles(h) != Some(|u.results|)
    ensures var (u1, id1) := RemoveAccount(u);
            var (u2, id2) := RemoveAccount(u1);
            && u2.results[id2] == Pending
            && OnAccountEvent(u2, UnregisteredReported).results[id2] == Resolved(Undefined)
            && Orphaned(u2, id1) && u2.results[id1] == Pending
  {
    var (u1, id1) := RemoveAccount(u);
    RemoveAccountResolves(u1);
    var (u2, id2) := RemoveAccount(u1);
    assert u2.accountListeners == [ResolveOnUnregistered(id2)];
    assert forall t: SessionId :: Listeners(u2, t) == Listeners(u, t);
  }

  /** Removal while a call is active is refused; state and call are kept. */
  lemma RemoveAccountWhileCalling(u: Ua)
    requires u.account.Some? && Accounts.IsCallInProgress(u.account.value)
    ensures RemoveAccount(u).0.results[RemoveAccount(u).1] == Rejected(CallInProgress)
    ensures RemoveAccount(u).0.account == u.account
  {
  }
}

=== FILE: types.dfy ===
/** Data model of the pjsua.node session layer: registration states, the
    call wrapper, the account wrapper, pending results and the log of
    commands sent to the SIP engine. */
module Types {

  datatype Option<+T> = None | Some(value: T)

  /** Identity of one engine signaling session (a SIP dialog). */
  type SessionId = nat
  /** Identity of one negotiated media stream. */
  type MediaId = nat
  /** Index of one asynchronous result handed out by the layer. */
  type ResultId = nat

  /** Registration state of an account. One constructor per string the
      source writes or compares with: `Unregistererd` is the misspelt value
      the unregistered handler writes, `Unregistered` the value the
      account-removal guard compares against. */
  datatype RegState = Registering | Registered | Unregistering | Unregistererd | Unregistered

  /** The string the source stores for each state. */
  function StateText(s: RegState): string
  {
    match s
    case Registering => "registering"
    case Registered => "registered"
    case Unregistering => "unregistering"
    case Unregistererd => "unregistererd"
    case Unregistered => "unregistered"
  }

  /** The rejection reasons of the asynchronous operations. */
  datatype Error =
    | NotRegistered                 // makeCall: state is not "registered"
    | CallInProgress                // makeCall / removeAccount: a call is active
    | CallingInProgress             // answer: a call is active
    | NotCalling                    // hangup: no call is active
    | Disconnected                  // makeCall / answer: session ended first
    | Timeout                       // makeAccount: registration status 408
    | UnregisteredError             // makeAccount: account was unregistered
    | NoAccount                     // removeAccount: no account was made
    | NotRegisteredIn(state: RegState)  // removeAccount: state is not "registered"

  /** The message of the `Error` object each rejection carries. */
  function Message(e: Error): string
  {
    match e
    case NotRegistered => "not registered"
    case CallInProgress => "call in progress"
    case CallingInProgress => "calling in progress"
    case NotCalling => "not calling"
    case Disconnected => "disconnected"
    case Timeout => "timeout"
    case UnregisteredError => "unregistered"
    case NoAccount => "no account"
    case NotRegisteredIn(s) => "not registered, \"" + StateText(s) + "\""
  }

  /** The messages a makeCall and a second removal carry once the account
      has been removed. */
  lemma AfterRemovalMessages()
    ensures Message(NotRegistered) == "not registered"
    ensures Message(NotRegisteredIn(Unregistererd)) == "not registered, \"unregistererd\""
  {
  }

  /** What a result resolves with: nothing, or the call wrapper of a session. */
  datatype Value = Undefined | CallHandle(session: SessionId)

  /** A promise: pending until it is settled, then settled for good. */
  datatype Settlement = Pending | Resolved(value: Value) | Rejected(error: Error)

  /** Settling a promise: the first settlement wins, later ones are ignored. */
  function Settle(p: Settlement, outcome: Settlement): (r: Settlement)
    requires !outcome.Pending?
    ensures !r.Pending?
    ensures p.Pending? || r == p
  {
    if p.Pending? then outcome else p
  }

  /** Settles result `id` of `rs`; ids not handed out are left alone. */
  function SettleAt(rs: seq<Settlement>, id: ResultId, outcome: Settlement): (r: seq<Settlement>)
    requires !outcome.Pending?
    ensures |r| == |rs|
    ensures forall k :: 0 <= k < |rs| && k != id ==> r[k] == rs[k]
    ensures id < |rs| && rs[id].Pending? ==> r[id] == outcome
    ensures Follows(rs, r)
  {
    if id < |rs| then rs[id := Settle(rs[id], outcome)] else rs
  }

  /** `later` extends `earlier` and agrees with it on every settled result:
      a settled promise never changes again. */
  ghost predicate Follows(earlier: seq<Settlement>, later: seq<Settlement>)
  {
    && |earlier| <= |later|
    && forall k :: 0 <= k < |earlier| && !earlier[k].Pending? ==> later[k] == earlier[k]
  }

  lemma FollowsTransitive(a: seq<Settlement>, b: seq<Settlement>, c: seq<Settlement>)
    requires Follows(a, b) && Follows(b, c)
    ensures Follows(a, c)
  {
    forall k | 0 <= k < |a| && !a[k].Pending?
      ensures c[k] == a[k]
    {
      assert b[k] == a[k];
    }
  }

  /** Which media files a call or account plays and records. */
  datatype PlayerConfig = PlayerConfig(player: Option<string>, recorder: Option<string>)

  /** The CallExt wrapper of one session. `player` and `recorder` say
      whether the wrapper acquired them; `medias` is undefined until the
      first non-empty media negotiation. */
  datatype CallExt = CallExt(session: SessionId, player: bool, recorder: bool, medias: Option<seq<MediaId>>)

  /** The AccountExt wrapper: a registration state and at most one active call. */
  datatype AccountExt = AccountExt(state: RegState, call: Option<CallExt>)

  /** End points of a media transmission link. */
  datatype Port = PlayerOf(owner: SessionId) | RecorderOf(owner: SessionId) | MediaPort(media: MediaId)

  /** Notifications the wrappers emit to application observers. */
  datatype Notification =
    | DtmfNote(session: SessionId, digit: string)
    | CallDisconnectedNote(session: SessionId)
    | RegisteringNote
    | UnregisteringNote
    | UnregistererdNote
    | IncomingCallNote(info: string, call: CallExt)

  /** Exceptions raised inside an event handler. */
  datatype Fault =
    | MediasUndefined(session: SessionId)   // iterating the media list of a call that never had media
    | NoActiveCall                          // dereferencing the active call when there is none

  /** One entry of the effect log: a command to the engine or to a native
      media object, a notification, or an exception thrown by a handler. */
  datatype Effect =
    | CreatePlayer(session: SessionId, file: string)
    | CreateRecorder(session: SessionId, file: string)
    | StartTransmit(from: Port, to: Port)
    | StopTransmit(from: Port, to: Port)
    | CloseMedia(media: MediaId)
    | SessionAnswer(session: SessionId, code: Option<int>, reason: Option<string>)
    | SessionHangup(session: SessionId, code: Option<int>, reason: Option<string>)
    | EngineMakeCall(destination: string, session: SessionId)
    | EngineSetRegistration(renew: bool)
    | EngineCreateAccount
    | EngineModifyAccount
    | EngineStart
    | Emit(note: Notification)
    | Threw(fault: Fault)

  /** The outcome of an operation that may throw. */
  datatype Outcome<+T> = Done(value: T) | Throws(fault: Fault)
}

=== FILE: user_agent.dfy ===
/** The Pjsua user agent together with the asynchronous operations of its
    account: the one place where listeners are attached and removed and
    where pending results are settled.

    Listeners are kept as ordered lists, one per engine session and one for
    the engine account. An event runs, in order, a snapshot of the listeners
    registered for it when it was raised (so a listener removed by an earlier
    one in the same snapshot still runs); a `once` listener removes itself
    before it runs; a handler that throws ends the snapshot early. */
module UserAgent {
  import opened Types
  import Calls
  import Accounts

  /** Invite-session states the engine reports. */
  datatype CallState = InvCalling | InvIncoming | InvEarly | InvConnecting | InvConfirmed | InvDisconnected

  /** Events the engine raises on one session. */
  datatype SessionEvent =
    | StateChanged(state: CallState)
    | DtmfReceived(digit: string)
    | MediaReady(medias: seq<MediaId>)

  /** Events the engine raises on its account object. */
  datatype AccountEvent =
    | StateReported(active: bool, code: int)
    | RegisteringReported
    | RegisteredReported
    | UnregisteringReported
    | UnregisteredReported
    | CallArrived(info: string)

  /** Listeners attached to a session. */
  datatype SessionHandler =
    | ForwardDtmf                    // makeCall / answer: forward digits to the active call
    | ForwardMedia                   // makeCall / answer: forward media to the active call
    | MakeCallState(result: ResultId)  // makeCall: settle on confirmed / disconnected
    | AnswerState(result: ResultId)    // answer: settle on confirmed / disconnected
    | HangupState(result: ResultId)    // hangup: settle on disconnected

  /** Listeners attached to the engine account. */
  datatype AccountHandler =
    | TimeoutOn408(result: ResultId)          // makeAccount: reject on status 408
    | ForwardCall                             // makeAccount: inbound calls
    | ForwardRegistering                      // makeAccount
    | ForwardUnregistering                    // makeAccount
    | RejectOnUnregistered(result: ResultId)  // makeAccount: reject when unregistered
    | ResolveOnceRegistered(result: ResultId) // makeAccount: `once`, resolve when registered
    | ResolveOnUnregistered(result: ResultId) // removeAccount: resolve when unregistered

  predicate SessionListens(h: SessionHandler, e: SessionEvent)
  {
    match h
    case ForwardDtmf => e.DtmfReceived?
    case ForwardMedia => e.MediaReady?
    case MakeCallState(_) => e.StateChanged?
    case AnswerState(_) => e.StateChanged?
    case HangupState(_) => e.StateChanged?
  }

  predicate AccountListens(h: AccountHandler, e: AccountEvent)
  {
    match h
    case TimeoutOn408(_) => e.StateReported?
    case ForwardCall => e.CallArrived?
    case ForwardRegistering => e.RegisteringReported?
    case ForwardUnregistering => e.UnregisteringReported?
    case RejectOnUnregistered(_) => e.UnregisteredReported?
    case ResolveOnceRegistered(_) => e.RegisteredReported?
    case ResolveOnUnregistered(_) => e.UnregisteredReported?
  }

  /** The result a session listener settles, if any. */
  function SessionSettles(h: SessionHandler): Option<ResultId>
  {
    match h
    case MakeCallState(id) => Some(id)
    case AnswerState(id) => Some(id)
    case HangupState(id) => Some(id)
    case _ => None
  }

  /** The result an account listener settles, if any. */
  function AccountSettles(h: AccountHandler): Option<ResultId>
  {
    match h
    case TimeoutOn408(id) => Some(id)
    case RejectOnUnregistered(id) => Some(id)
    case ResolveOnceRegistered(id) => Some(id)
    case ResolveOnUnregistered(id) => Some(id)
    case _ => None
  }

  /** The whole layer: the media configuration calls inherit, whether the
      engine was started, the account (once made, never dropped), the
      listener lists, the number of sessions the engine has opened, every
      result handed out so far, and the effect log. */
  datatype Ua = Ua(
    config: PlayerConfig,
    started: bool,
    account: Option<AccountExt>,
    accountListeners: seq<AccountHandler>,
    sessionListeners: map<SessionId, seq<SessionHandler>>,
    sessions: nat,
    results: seq<Settlement>,
    log: seq<Effect>)

  /** A new user agent: no account, engine not started, nothing pending. */
  function Init(config: PlayerConfig): (u: Ua)
    ensures u.account.None? && !u.started
    ensures u.results == [] && u.accountListeners == []
  {
    Ua(config, false, None, [], map[], 0, [], [])
  }

  // ---------------------------------------------------------------- helpers

  function Listeners(u: Ua, s: SessionId): seq<SessionHandler>
  {
    if s in u.sessionListeners then u.sessionListeners[s] else []
  }

  function SetListeners(u: Ua, s: SessionId, hs: seq<SessionHandler>): (r: Ua)
    ensures Listeners(r, s) == hs
    ensures forall t :: t != s ==> Listeners(r, t) == Listeners(u, t)
    ensures r.(sessionListeners := u.sessionListeners) == u
  {
    u.(sessionListeners := u.sessionListeners[s := hs])
  }

  function Log(u: Ua, effs: seq<Effect>): Ua
  {
    u.(log := u.log + effs)
  }

  function SettleResult(u: Ua, id: ResultId, outcome: Settlement): (r: Ua)
    requires !outcome.Pending?
    ensures r == u.(results := r.results)
    ensures Follows(u.results, r.results)
  {
    u.(results := SettleAt(u.results, id, outcome))
  }

  /** A new result, settled at once or left pending. */
  function AddResult(u: Ua, p: Settlement): (r: (Ua, ResultId))
    ensures r.0 == u.(results := u.results + [p]) && r.1 == |u.results|
    ensures Follows(u.results, r.0.results)
  {
    (u.(results := u.results + [p]), |u.results|)
  }

  /** The session of the active call, if any. */
  function ActiveSession(u: Ua): Option<SessionId>
  {
    if u.account.Some? && u.account.value.call.Some? then Some(u.account.value.call.value.session) else None
  }

  /** From `u` to `r` no call became active that was not active before: the
      active call, if any, is the one of `u` (media list aside). The account
      is neither made nor dropped and its registration state is kept. */
  ghost predicate NoNewCall(u: Ua, r: Ua)
  {
    && (r.account.Some? <==> u.account.Some?)
    && (u.account.Some? ==> r.account.value.state == u.account.value.state)
    && (ActiveSession(r).Some? ==> ActiveSession(r) == ActiveSession(u))
  }

  /** From `u` to `r` an active call stayed active. */
  ghost predicate CallKept(u: Ua, r: Ua)
  {
    ActiveSession(u).Some? ==> ActiveSession(r).Some?
  }

  // ---------------------------------------------------------------- session events

  /** The `disconnected` branch shared by the makeCall, answer and hangup
      listeners: remove every listener of session `t`, let the active call
      close its media (this throws when it has none, and then nothing after
      it runs), clear the active call, settle result `id`. */
  function CloseActiveCall(u: Ua, t: SessionId, id: ResultId, outcome: Settlement): (r: (Ua, bool))
    requires !outcome.Pending?
    ensures Follows(u.results, r.0.results)
    ensures NoNewCall(u, r.0)
    ensures Listeners(r.0, t) == []
    ensures forall t' :: t' != t ==> Listeners(r.0, t') == Listeners(u, t')
    ensures r.0.accountListeners == u.accountListeners
    ensures !r.1 <==> ActiveSession(u).Some? && u.account.value.call.value.medias.None?
    ensures r.1 ==> ActiveSession(r.0).None?
    ensures r.1 && id < |u.results| && u.results[id].Pending? ==> r.0.results[id] == outcome
    ensures !r.1 ==> r.0.results == u.results && ActiveSession(r.0) == ActiveSession(u)
    ensures !r.1 ==> r.0.log == u.log + [Threw(MediasUndefined(u.account.value.call.value.session))]
    ensures r.1 && u.account.Some? ==> r.0.log == u.log + Accounts.OnDisconnected(u.account.value).value
    ensures |r.0.results| == |u.results|
    ensures forall j :: 0 <= j < |u.results| && j != id ==> r.0.results[j] == u.results[j]
  {
    var u1 := SetListeners(u, t, []);
    match u1.account
    case None => (SettleResult(u1, id, outcome), true)
    case Some(a) =>
      match Accounts.OnDisconnected(a)
      case Throws(f) => (Log(u1, [Threw(f)]), false)
      case Done(effs) =>
        (SettleResult(Log(u1, effs).(account := Some(a.(call := None))), id, outcome), true)
  }

  /** The state listener of makeCall (`resolvesWithCall`) and of answer:
      `confirmed` resolves (makeCall with the active call), `disconnected`
      tears the call down and rejects, other states do nothing. */
  function OnSetupState(u: Ua, s: SessionId, id: ResultId, st: CallState, resolvesWithCall: bool): (r: (Ua, bool))
    ensures Follows(u.results, r.0.results)
    ensures NoNewCall(u, r.0)
    ensures st != InvDisconnected ==> r.1 && r.0 == u.(results := r.0.results)
    ensures st != InvConfirmed && st != InvDisconnected ==> r.0 == u
    ensures |r.0.results| == |u.results|
    ensures forall j :: 0 <= j < |u.results| && j != id ==> r.0.results[j] == u.results[j]
    ensures forall t :: t != s ==> Listeners(r.0, t) == Listeners(u, t)
    ensures r.0.accountListeners == u.accountListeners
    ensures st == InvConfirmed && id < |u.results| && u.results[id].Pending? ==>
              r.0.results[id] == Resolved(if resolvesWithCall && ActiveSession(u).Some? then CallHandle(ActiveSession(u).value) else Undefined)
    ensures st == InvDisconnected ==> Listeners(r.0, s) == []
    ensures st == InvDisconnected ==> (!r.1 <==> ActiveSession(u).Some? && u.account.value.call.value.medias.None?)
    ensures st == InvDisconnected && r.1 ==> ActiveSession(r.0).None?
    ensures st == InvDisconnected && r.1 && id < |u.results| && u.results[id].Pending? ==>
              r.0.results[id] == Rejected(Disconnected)
    ensures st == InvDisconnected && r.1 && ActiveSession(u).Some? ==>
              r.0.log == u.log + Calls.OnDisconnected(u.account.value.call.value).value
  {
    match st
    case InvConfirmed =>
      var v := match ActiveSession(u)
        case Some(t) => if resolvesWithCall then CallHandle(t) else Undefined
        case None => Undefined;
      (SettleResult(u, id, Resolved(v)), true)
    case InvDisconnected => CloseActiveCall(u, s, id, Rejected(Disconnected))
    case _ => (u, true)
  }

  /** The single state listener hangup leaves: only `disconnected` matters;
      it clears the listeners of the active call's session, tears the call
      down and resolves. With no active call the dereference throws. */
  function OnHangupState(u: Ua, id: ResultId, st: CallState): (r: (Ua, bool))
    ensures Follows(u.results, r.0.results)
    ensures NoNewCall(u, r.0)
    ensures st != InvDisconnected ==> r == (u, true)
    ensures |r.0.results| == |u.results|
    ensures forall j :: 0 <= j < |u.results| && j != id ==> r.0.results[j] == u.results[j]
    ensures forall t: SessionId :: ActiveSession(u) != Some(t) ==> Listeners(r.0, t) == Listeners(u, t)
    ensures r.0.accountListeners == u.accountListeners
    ensures st == InvDisconnected ==> (!r.1 <==> ActiveSession(u).None? || u.account.value.call.value.medias.None?)
    ensures st == InvDisconnected && ActiveSession(u).Some? ==> Listeners(r.0, ActiveSession(u).value) == []
    ensures st == InvDisconnected && r.1 ==> ActiveSession(r.0).None?
    ensures st == InvDisconnected && r.1 && id < |u.results| && u.results[id].Pending? ==>
              r.0.results[id] == Resolved(Undefined)
    ensures st == InvDisconnected && r.1 ==>
              r.0.log == u.log + Calls.OnDisconnected(u.account.value.call.value).value
    ensures st == InvDisconnected && !r.1 ==> |r.0.log| == |u.log| + 1 && r.0.log[|u.log|].Threw?
  {
    if st != InvDisconnected then (u, true)
    else
      match ActiveSession(u)
      case None => (Log(u, [Threw(NoActiveCall)]), false)
      case Some(t) => CloseActiveCall(u, t, id, Resolved(Undefined))
  }

  /** Runs one session listener; the flag is false when it threw. */
  function ApplySession(u: Ua, s: SessionId, h: SessionHandler, e: SessionEvent): (r: (Ua, bool))
    ensures Follows(u.results, r.0.results)
    ensures NoNewCall(u, r.0)
    ensures e != StateChanged(InvDisconnected) ==> r.1 && CallKept(u, r.0)
    ensures |r.0.results| == |u.results|
    ensures forall j :: 0 <= j < |u.results| && SessionSettles(h) != Some(j) ==> r.0.results[j] == u.results[j]
    ensures forall t: SessionId :: Listeners(r.0, t) == Listeners(u, t) || Listeners(r.0, t) == []
    ensures r.0.accountListeners == u.accountListeners
    ensures h == ForwardDtmf && e.DtmfReceived? && u.account.Some? ==>
              r == (u.(log := u.log + Accounts.OnDtmf(u.account.value, e.digit)), true)
    ensures h == ForwardMedia && e.MediaReady? && u.account.Some? ==>
              var (a', effs) := Accounts.OnMedia(u.account.value, e.medias);
              r == (u.(account := Some(a'), log := u.log + effs), true)
  {
    match (h, e)
    case (ForwardDtmf, DtmfReceived(digit)) =>
      (match u.account
       case None => u
       case Some(a) => Log(u, Accounts.OnDtmf(a, digit)), true)
    case (ForwardMedia, MediaReady(medias)) =>
      (match u.account
       case None => u
       case Some(a) =>
         var (a', effs) := Accounts.OnMedia(a, medias);
         Log(u.(account := Some(a')), effs), true)
    case (MakeCallState(id), StateChanged(st)) => OnSetupState(u, s, id, st, true)
    case (AnswerState(id), StateChanged(st)) => OnSetupState(u, s, id, st, false)
    case (HangupState(id), StateChanged(st)) => OnHangupState(u, id, st)
    case _ => (u, true)
  }

  /** The listeners of a list that listen to `e`, in order. */
  function SessionMatching(hs: seq<SessionHandler>, e: SessionEvent): (r: seq<SessionHandler>)
    ensures |r| <= |hs|
  {
    if |hs| == 0 then []
    else (if SessionListens(hs[0], e) then [hs[0]] else []) + SessionMatching(hs[1..], e)
  }

  /** The snapshot an event runs holds exactly the listeners registered
      for that event. */
  lemma {:induction false} SessionMatchingSelects(hs: seq<SessionHandler>, e: SessionEvent, h: SessionHandler)
    ensures h in SessionMatching(hs, e) <==> h in hs && SessionListens(h, e)
  {
    if |hs| > 0 {
      SessionMatchingSelects(hs[1..], e, h);
      assert hs == [hs[0]] + hs[1..];
    }
  }

  lemma AppendAssociates<T>(x: seq<T>, y: seq<T>, z: seq<T>)
    ensures x + (y + z) == (x + y) + z
  {
  }

  lemma SessionMatchingCons(h: SessionHandler, t: seq<SessionHandler>, e: SessionEvent)
    ensures SessionMatching([h] + t, e) == (if SessionListens(h, e) then [h] else []) + SessionMatching(t, e)
  {
    assert ([h] + t)[0] == h;
    assert ([h] + t)[1..] == t;
  }

  /** Matching distributes over concatenation. */
  lemma {:induction false} SessionMatchingAppend(a: seq<SessionHandler>, b: seq<SessionHandler>, e: SessionEvent)
    ensures SessionMatching(a + b, e) == SessionMatching(a, e) + SessionMatching(b, e)
  {
    if |a| == 0 {
      assert a + b == b;
    } else {
      var head := if SessionListens(a[0], e) then [a[0]] else [];
      var tail := a[1..];
      assert a == [a[0]] + tail;
      assert a + b == [a[0]] + (tail + b);
      SessionMatchingCons(a[0], tail, e);
      SessionMatchingCons(a[0], tail + b, e);
      SessionMatchingAppend(tail, b, e);
      AppendAssociates(head, SessionMatching(tail, e), SessionMatching(b, e));
    }
  }

  /** Runs a snapshot of listeners in order, stopping at the first throw. */
  function RunSession(u: Ua, s: SessionId, hs: seq<SessionHandler>, e: SessionEvent): (r: (Ua, bool))
    ensures Follows(u.results, r.0.results)
    ensures NoNewCall(u, r.0)
    ensures e != StateChanged(InvDisconnected) ==> r.1 && CallKept(u, r.0)
    decreases |hs|
  {
    if |hs| == 0 then (u, true)
    else
      var (u1, ok) := ApplySession(u, s, hs[0], e);
      if !ok then (u1, false)
      else
        var r := RunSession(u1, s, hs[1..], e);
        FollowsTransitive(u.results, u1.results, r.0.results);
        r
  }

  /** The engine raises `e` on session `s`. */
  function OnSessionEvent(u: Ua, s: SessionId, e: SessionEvent): (r: Ua)
    ensures Follows(u.results, r.results)
    ensures NoNewCall(u, r)
    ensures e != StateChanged(InvDisconnected) ==> CallKept(u, r)
  {
    RunSession(u, s, SessionMatching(Listeners(u, s), e), e).0
  }

  // ---------------------------------------------------------------- account events

  /** Removes the most recently added occurrence of `h`, as removing a
      listener does. */
  function RemoveLast(hs: seq<AccountHandler>, h: AccountHandler): (r: seq<AccountHandler>)
    ensures |r| == |hs| || (|r| == |hs| - 1 && h in hs)
    ensures forall x :: x in r ==> x in hs
  {
    if |hs| == 0 then []
    else if hs[|hs| - 1] == h then hs[..|hs| - 1]
    else RemoveLast(hs[..|hs| - 1], h) + [hs[|hs| - 1]]
  }

  /** Hands a registration event to the account. */
  function RegEvent(u: Ua, ev: Accounts.RegEvent): (r: Ua)
    ensures r.results == u.results && r.accountListeners == u.accountListeners
    ensures r.account.Some? <==> u.account.Some?
    ensures ActiveSession(r) == ActiveSession(u)
  {
    match u.account
    case None => u
    case Some(a) =>
      var (a', effs) := Accounts.OnRegEvent(a, ev);
      Log(u.(account := Some(a')), effs)
  }

  /** Runs one account listener; `session` is the session the engine
      opened when `e` is an inbound call. */
  function ApplyAccount(u: Ua, h: AccountHandler, e: AccountEvent, session: SessionId): (r: Ua)
    ensures Follows(u.results, r.results)
    ensures r.account.Some? <==> u.account.Some?
    ensures ActiveSession(r) == ActiveSession(u)
    ensures r.sessionListeners == u.sessionListeners
    ensures |r.results| == |u.results|
    ensures forall j :: 0 <= j < |u.results| && AccountSettles(h) != Some(j) ==> r.results[j] == u.results[j]
    ensures forall x :: x in r.accountListeners ==> x in u.accountListeners
    ensures h == ForwardRegistering && e.RegisteringReported? ==> r == RegEvent(u, Accounts.RegisteringEvent)
    ensures h == ForwardUnregistering && e.UnregisteringReported? ==> r == RegEvent(u, Accounts.UnregisteringEvent)
    ensures h == ForwardCall && e.CallArrived? && u.account.Some? ==>
              var (a', effs) := Accounts.OnCall(u.account.value, e.info, session, u.config);
              r == u.(account := Some(a'), log := u.log + effs)
  {
    match (h, e)
    case (TimeoutOn408(id), StateReported(_, code)) =>
      if code == 408 then SettleResult(u.(accountListeners := []), id, Rejected(Timeout)) else u
    case (ForwardCall, CallArrived(info)) =>
      (match u.account
       case None => u
       case Some(a) =>
         var (a', effs) := Accounts.OnCall(a, info, session, u.config);
         Log(u.(account := Some(a')), effs))
    case (ForwardRegistering, RegisteringReported) => RegEvent(u, Accounts.RegisteringEvent)
    case (ForwardUnregistering, UnregisteringReported) => RegEvent(u, Accounts.UnregisteringEvent)
    case (RejectOnUnregistered(id), UnregisteredReported) =>
      var u1 := RegEvent(u, Accounts.UnregisteredEvent);
      SettleResult(u1.(accountListeners := []), id, Rejected(UnregisteredError))
    case (ResolveOnceRegistered(id), RegisteredReported) =>
      var u1 := u.(accountListeners := RemoveLast(u.accountListeners, h));
      SettleResult(RegEvent(u1, Accounts.RegisteredEvent), id, Resolved(Undefined))
    case (ResolveOnUnregistered(id), UnregisteredReported) =>
      var u1 := u.(accountListeners := []);
      SettleResult(RegEvent(u1, Accounts.UnregisteredEvent), id, Resolved(Undefined))
    case _ => u
  }

  function AccountMatching(hs: seq<AccountHandler>, e: AccountEvent): (r: seq<AccountHandler>)
    ensures |r| <= |hs|
  {
    if |hs| == 0 then []
    else (if AccountListens(hs[0], e) then [hs[0]] else []) + AccountMatching(hs[1..], e)
  }

  lemma {:induction false} AccountMatchingSelects(hs: seq<AccountHandler>, e: AccountEvent, h: AccountHandler)
    ensures h in AccountMatching(hs, e) <==> h in hs && AccountListens(h, e)
  {
    if |hs| > 0 {
      AccountMatchingSelects(hs[1..], e, h);
      assert hs == [hs[0]] + hs[1..];
    }
  }

  lemma AccountMatchingCons(h: AccountHandler, t: seq<AccountHandler>, e: AccountEvent)
    ensures AccountMatching([h] + t, e) == (if AccountListens(h, e) then [h] else []) + AccountMatching(t, e)
  {
    assert ([h] + t)[0] == h;
    assert ([h] + t)[1..] == t;
  }

  /** Matching distributes over concatenation. */
  lemma {:induction false} AccountMatchingAppend(a: seq<AccountHandler>, b: seq<AccountHandler>, e: AccountEvent)
    ensures AccountMatching(a + b, e) == AccountMatching(a, e) + AccountMatching(b, e)
  {
    if |a| == 0 {
      assert a + b == b;
    } else {
      var head := if AccountListens(a[0], e) then [a[0]] else [];
      var tail := a[1..];
      assert a == [a[0]] + tail;
      assert a + b == [a[0]] + (tail + b);
      AccountMatchingCons(a[0], tail, e);
      AccountMatchingCons(a[0], tail + b, e);
      AccountMatchingAppend(tail, b, e);
      AppendAssociates(head, AccountMatching(tail, e), AccountMatching(b, e));
    }
  }

  function RunAccount(u: Ua, hs: seq<AccountHandler>, e: AccountEvent, session: SessionId): (r: Ua)
    ensures Follows(u.results, r.results)
    ensures r.account.Some? <==> u.account.Some?
    ensures ActiveSession(r) == ActiveSession(u)
    ensures r.sessionListeners == u.sessionListeners
    decreases |hs|
  {
    if |hs| == 0 then u
    else
      var u1 := ApplyAccount(u, hs[0], e, session);
      var r := RunAccount(u1, hs[1..], e, session);
      FollowsTransitive(u.results, u1.results, r.results);
      r
  }

  /** The engine raises `e` on its account. An inbound call opens a new
      session whether or not anyone listens. */
  function OnAccountEvent(u: Ua, e: AccountEvent): (r: Ua)
    ensures Follows(u.results, r.results)
    ensures r.account.Some? <==> u.account.Some?
    ensures ActiveSession(r) == ActiveSession(u)
    ensures r.sessionListeners == u.sessionListeners
  {
    var session := u.sessions;
    var u0 := if e.CallArrived? then u.(sessions := u.sessions + 1) else u;
    RunAccount(u0, AccountMatching(u.accountListeners, e), e, session)
  }

  // ---------------------------------------------------------------- operations

  /** The listeners makeAccount attaches with `on`, in order. */
  function PersistentListeners(id: ResultId): seq<AccountHandler>
  {
    [TimeoutOn408(id), ForwardCall, ForwardRegistering, ForwardUnregistering, RejectOnUnregistered(id)]
  }

  /** All listeners makeAccount attaches, the `once` one last. */
  function MakeAccountListeners(id: ResultId): seq<AccountHandler>
  {
    PersistentListeners(id) + [ResolveOnceRegistered(id)]
  }

  /** Makes (or, when one exists, modifies) the account, attaches its
      listeners after the ones already there, starts the engine on first
      use, and returns a pending result. An existing account keeps its
      state and call. */
  function MakeAccount(u: Ua): (r: (Ua, ResultId))
    ensures r.1 == |u.results| && r.0.results == u.results + [Pending]
    ensures r.0.account.Some?
    ensures u.account.Some? ==> r.0.account == u.account
    ensures u.account.None? ==> r.0.account == Some(Accounts.New())
    ensures r.0.accountListeners == u.accountListeners + MakeAccountListeners(r.1)
    ensures r.0.started
    ensures r.0.log == u.log + [if u.account.Some? then EngineModifyAccount else EngineCreateAccount]
                             + (if u.started then [] else [EngineStart])
    ensures r.0.sessionListeners == u.sessionListeners
  {
    var u1 := match u.account
      case Some(_) => Log(u, [EngineModifyAccount])
      case None => Log(u, [EngineCreateAccount]).(account := Some(Accounts.New()));
    var u2 := u1.(accountListeners := u1.accountListeners + MakeAccountListeners(|u.results|));
    var u3 := if u2.started then u2 else Log(u2, [EngineStart]).(started := true);
    AddResult(u3, Pending)
  }

  /** Removes the registration. Guards, in order: no account, a call in
      progress, already `unregistered` (a no-op success), not registered.
      Otherwise every account listener is replaced by one that resolves
      on `unregistered`, and unregistration is requested. */
  function RemoveAccount(u: Ua): (r: (Ua, ResultId))
    ensures r.1 == |u.results| && |r.0.results| == |u.results| + 1 && r.0.results[..|u.results|] == u.results
    ensures u.account.None? ==> r.0 == u.(results := u.results + [Rejected(NoAccount)])
    ensures u.account.Some? && Accounts.IsCallInProgress(u.account.value) ==>
              r.0 == u.(results := u.results + [Rejected(CallInProgress)])
    ensures u.account.Some? && !Accounts.IsCallInProgress(u.account.value) && u.account.value.state == Unregistered ==>
              r.0 == u.(results := u.results + [Resolved(Undefined)])
    ensures u.account.Some? && !Accounts.IsCallInProgress(u.account.value) && u.account.value.state !in {Registered, Unregistered} ==>
              r.0 == u.(results := u.results + [Rejected(NotRegisteredIn(u.account.value.state))])
    ensures u.account.Some? && !Accounts.IsCallInProgress(u.account.value) && u.account.value.state == Registered ==>
              && r.0.results[r.1] == Pending
              && r.0.accountListeners == [ResolveOnUnregistered(r.1)]
              && r.0.log == u.log + [EngineSetRegistration(false)]
              && r.0.account == u.account
    ensures r.0.sessionListeners == u.sessionListeners && r.0.account == u.account
  {
    match u.account
    case None => AddResult(u, Rejected(NoAccount))
    case Some(a) =>
      if Accounts.IsCallInProgress(a) then AddResult(u, Rejected(CallInProgress))
      else if a.state == Unregistered then AddResult(u, Resolved(Undefined))
      else if a.state != Registered then AddResult(u, Rejected(NotRegisteredIn(a.state)))
      else
        var u1 := u.(accountListeners := [ResolveOnUnregistered(|u.results|)]);
        AddResult(Log(u1, [EngineSetRegistration(false)]), Pending)
  }

  /** Starts an outbound call. Guards, in order: not registered, a call in
      progress; a rejected call leaves everything but the new result alone
      and does not reach the engine. Otherwise the engine opens a session,
      its wrapper becomes the active call, and the result stays pending
      until the session is confirmed or disconnected. */
  function MakeCall(u: Ua, destination: string): (r: (Ua, ResultId))
    requires u.account.Some?
    ensures r.1 == |u.results| && |r.0.results| == |u.results| + 1 && r.0.results[..|u.results|] == u.results
    ensures u.account.value.state != Registered ==>
              r.0 == u.(results := u.results + [Rejected(NotRegistered)])
    ensures u.account.value.state == Registered && Accounts.IsCallInProgress(u.account.value) ==>
              r.0 == u.(results := u.results + [Rejected(CallInProgress)])
    ensures u.account.value.state == Registered && !Accounts.IsCallInProgress(u.account.value) ==>
              && r.0.results[r.1] == Pending
              && ActiveSession(r.0) == Some(u.sessions)
              && r.0.sessions == u.sessions + 1
              && Listeners(r.0, u.sessions) == Listeners(u, u.sessions) + [ForwardDtmf, ForwardMedia, MakeCallState(r.1)]
              && (forall t :: t != u.sessions ==> Listeners(r.0, t) == Listeners(u, t))
              && |r.0.log| > |u.log| && r.0.log[|u.log|] == EngineMakeCall(destination, u.sessions)
              && r.0.account.value.call.value.medias.None?
              && r.0.account.value.call == Some(Calls.New(u.sessions, None, u.config).0)
              && r.0.log == u.log + [EngineMakeCall(destination, u.sessions)] + Calls.New(u.sessions, None, u.config).1
    ensures r.0.account.Some? && r.0.account.value.state == u.account.value.state
    ensures r.0.accountListeners == u.accountListeners
  {
    var a := u.account.value;
    if a.state != Registered then AddResult(u, Rejected(NotRegistered))
    else if Accounts.IsCallInProgress(a) then AddResult(u, Rejected(CallInProgress))
    else
      var s := u.sessions;
      var (c, effs) := Calls.New(s, None, u.config);
      var u1 := SetListeners(u, s, Listeners(u, s) + [ForwardDtmf, ForwardMedia, MakeCallState(|u.results|)]);
      var u2 := Log(u1, [EngineMakeCall(destination, s)] + effs);
      AddResult(u2.(sessions := s + 1, account := Some(a.(call := Some(c)))), Pending)
  }

  /** Answers an offered call. With a call in progress it is rejected and
      nothing else changes. Otherwise the call becomes active before the
      answer is sent, and the result stays pending until the session is
      confirmed or disconnected. */
  function Answer(u: Ua, c: CallExt, code: Option<int>, reason: Option<string>): (r: (Ua, ResultId))
    requires u.account.Some?
    ensures r.1 == |u.results| && |r.0.results| == |u.results| + 1 && r.0.results[..|u.results|] == u.results
    ensures Accounts.IsCallInProgress(u.account.value) ==>
              r.0 == u.(results := u.results + [Rejected(CallingInProgress)])
    ensures !Accounts.IsCallInProgress(u.account.value) ==>
              && r.0.results[r.1] == Pending
              && r.0.account.Some? && r.0.account.value.call == Some(c)
              && Listeners(r.0, c.session) == Listeners(u, c.session) + [ForwardDtmf, ForwardMedia, AnswerState(r.1)]
              && (forall t :: t != c.session ==> Listeners(r.0, t) == Listeners(u, t))
              && r.0.log == u.log + [SessionAnswer(c.session, code, reason)]
    ensures r.0.account.Some? && r.0.account.value.state == u.account.value.state
    ensures r.0.accountListeners == u.accountListeners
  {
    var a := u.account.value;
    if Accounts.IsCallInProgress(a) then AddResult(u, Rejected(CallingInProgress))
    else
      var u1 := u.(account := Some(a.(call := Some(c))));
      var u2 := SetListeners(u1, c.session, Listeners(u, c.session) + [ForwardDtmf, ForwardMedia, AnswerState(|u.results|)]);
      AddResult(Log(u2, Calls.Answer(c, code, reason)), Pending)
  }

  /** Hangs up the active call. With none it is rejected at once.
      Otherwise the session's listeners are replaced by a single one that
      waits for `disconnected`, the call is told to hang up, and the result
      stays pending; the call stays active until then. */
  function Hangup(u: Ua, code: Option<int>, reason: Option<string>): (r: (Ua, ResultId))
    requires u.account.Some?
    ensures r.1 == |u.results| && |r.0.results| == |u.results| + 1 && r.0.results[..|u.results|] == u.results
    ensures !Accounts.IsCallInProgress(u.account.value) ==>
              r.0 == u.(results := u.results + [Rejected(NotCalling)])
    ensures Accounts.IsCallInProgress(u.account.value) ==>
              var c := u.account.value.call.value;
              && r.0.results[r.1] == Pending
              && r.0.account == u.account
              && Listeners(r.0, c.session) == [HangupState(r.1)]
              && (forall t :: t != c.session ==> Listeners(r.0, t) == Listeners(u, t))
              && r.0.log == u.log + Calls.Hangup(c, code, reason)
    ensures r.0.account == u.account && r.0.accountListeners == u.accountListeners
  {
    match u.account.value.call
    case None => AddResult(u, Rejected(NotCalling))
    case Some(c) =>
      var u1 := SetListeners(u, c.session, [HangupState(|u.results|)]);
      AddResult(Log(u1, Calls.Hangup(c, code, reason)), Pending)
  }

  /** Asks the engine to refresh (`renew`) or drop the registration. */
  function SetRegistration(u: Ua, renew: bool): (r: Ua)
    requires u.account.Some?
    ensures r == u.(log := u.log + [EngineSetRegistration(renew)])
  {
    Log(u, [EngineSetRegistration(renew)])
  }

  // ---------------------------------------------------------------- steps

  /** One thing that can happen to the layer: an operation called by the
      application, or an event raised by the engine. */
  datatype Input =
    | DoMakeAccount
    | DoRemoveAccount
    | DoMakeCall(destination: string)
    | DoAnswer(call: CallExt, code: Option<int>, reason: Option<string>)
    | DoHangup(code: Option<int>, reason: Option<string>)
    | DoSetRegistration(renew: bool)
    | AccountReports(event: AccountEvent)
    | SessionReports(session: SessionId, sessionEvent: SessionEvent)

  /** The account operations need an account object; calling one without
      it fails in the caller before reaching this layer. */
  function Step(u: Ua, i: Input): (r: Ua)
    ensures Follows(u.results, r.results)
    ensures u.account.Some? ==> r.account.Some?
  {
    match i
    case DoMakeAccount => MakeAccount(u).0
    case DoRemoveAccount => RemoveAccount(u).0
    case DoMakeCall(d) => if u.account.Some? then MakeCall(u, d).0 else u
    case DoAnswer(c, code, reason) => if u.account.Some? then Answer(u, c, code, reason).0 else u
    case DoHangup(code, reason) => if u.account.Some? then Hangup(u, code, reason).0 else u
    case DoSetRegistration(renew) => if u.account.Some? then SetRegistration(u, renew) else u
    case AccountReports(e) => OnAccountEvent(u, e)
    case SessionReports(s, e) => OnSessionEvent(u, s, e)
  }

  /** A sequence of inputs, in order. */
  function Run(u: Ua, inputs: seq<Input>): Ua
    decreases |inputs|
  {
    if |inputs| == 0 then u else Run(Step(u, inputs[0]), inputs[1..])
  }
}
